=== FILE: README.md ===
# SatelitoVido selection core in Dafny

A model of the part of `SatelitoVido.py` that picks and downloads one satellite
image: the three preference functions of the picker table, `extract_first_date`
(the start timestamp read with `strptime` from offsets 1..32 of a record's
`time` string), the picker lookup and the sort-and-take-first of
`choose_and_fetch_image`, the soft-failure branches of `metadata_fetch` and
`image_fetch`, and the `.jp2` save with the file name the function returns.

Modules:

- `Wrappers`: `Option` and `Result`.
- `Timestamp`: Python 2.7 `strptime` for the layout `%Y-%m-%dT%H:%M:%S.%f+00:00`.
  Each directive is a digit field with CPython's widths and ranges. Literals
  match regardless of case. Leftover text is "unconverted data remains". The
  `datetime` constructor then checks the calendar. The module also has the
  canonical writer `Format`, the order `Later` on datetimes, and the
  `time[1:33]` window.
- `Catalog`: image records, requests, abstract responses, `MetadataFetch`,
  `ImageFetch`.
- `Comparators`: `compare_for_larger`, `compare_for_smaller`,
  `compare_first_dates`.
- `Selection`:
  - the picker table;
  - `SortAsWritten`, the Python 2 `list.sort(cmp)` the program performs;
  - `SelectBest`, the choice the pickers describe.
- `Pipeline`: `choose_and_fetch_image` after argument parsing. The two HTTP
  responses and the disk behaviour are inputs.

The network, the disk and the command line are parameters: a `Response`
carries the status, reason and body that `urlopen` would hand back, and a
`Disk` value says whether opening or writing the output file raises `IOError`.

Points where the program does something other than it appears to:

- Timestamps are not parsed when the catalog is read. Only the date picker
  parses them, during the sort, and only when there are at least two records.
  A single record with a malformed `time` is downloaded without complaint
  (`Selection.SingleChoice`).
- The layout is not enforced at fixed width when the `time` string is shorter
  than 33 characters. The slice `time[1:33]` is then shorter than 32, and
  `strptime` accepts one-digit months, days, hours, minutes and seconds, and a
  short fraction (`Timestamp.ShortTimeParses`). The fixed-width reading holds
  only for strings of 33 or more characters (`Timestamp.ExtractFirstDateFixed`).
- The pickers' docstrings say "favoring bigger" and "favoring smaller", but
  the program downloads the catalog's first record whatever the picker (see
  Findings). `Selection.SelectBest` and `Pipeline.ChooseAndFetch` model the
  intended choice and save; `Selection.ChosenAsWritten` and
  `Pipeline.ChooseAndFetchAsWritten` model what the code does.
- The two fetches look as if they fail softly on a status other than 200,
  printing the status and reason phrase. Under CPython 2.7 the response that
  `urllib2` returns has no `reason` attribute, so reading it raises
  `AttributeError` and the run ends there (see Findings).
  `Catalog.MetadataFetch` and `Catalog.ImageFetch` model the intended soft
  failure; `Catalog.FetchAsWritten` models the crash.

## Model

| member | source | states |
|---|---|---|
| Catalog.ApiHeaders | SatelitoVido.py:191-193 | the header map has exactly the key `x-api-key`, mapped to the API key |
| Catalog.MetadataFetch | SatelitoVido.py:145-151 | (corrected) status 200 gives the decoded records and prints nothing; any other status gives the empty list and the "Failed to download image metadata" line with that status and reason |
| Catalog.ImageRequest | SatelitoVido.py:161-163 | the download request goes to the record's `download_path` with the given headers |
| Catalog.ImageFetch | SatelitoVido.py:165-171 | (corrected) there is an image exactly when the status is 200, and it is then the response body; otherwise the result is `None` with the "Failed to download image" line |
| Catalog.FetchAsWritten | SatelitoVido.py:145-171 | `metadata_fetch` and `image_fetch` under CPython 2.7: each succeeds exactly on status 200, with the response body; a status outside 200..299 is `urlopen`'s `HTTPError`, and any other 2xx status is the `AttributeError` of reading `response.reason`, each carrying that status |
| Catalog.FetchesAgree | SatelitoVido.py:145-171 | on status 200 the fetches as written and as intended give the same value and print nothing; on any other status the ones as written raise while the intended ones print a complaint |
| Catalog.NoContentCrashes | SatelitoVido.py:148-150 | a 204 answer makes both fetches as written raise, where the intended ones give the empty list and `None` |
| Catalog.NotFoundRaises | SatelitoVido.py:144-148 | a 404 answer makes `urlopen` raise `HTTPError` in both fetches as written, where the intended ones give the empty list and `None` |
| Catalog.FailedQueryLooksEmpty | SatelitoVido.py:145-151 | (corrected) a failed catalog query yields the same records as a successful query that found nothing, and it prints a complaint |
| Comparators.NumericPreferences | SatelitoVido.py:100-111 | `compare_for_larger` and `compare_for_smaller` are irreflexive, asymmetric and transitive, each is the other with its arguments swapped, and the larger-preference is total on distinct values |
| Comparators.CompareFirstDates | SatelitoVido.py:122-127 | succeeds exactly when both starts parse, and is then true exactly when the first start is later; an unreadable first start raises its own error before the second one is read |
| Comparators.DatePreference | SatelitoVido.py:122-127 | on records whose starts parse, the date preference is irreflexive, asymmetric and transitive |
| Comparators.DatePreferenceIsTextOrder | SatelitoVido.py:114-127 | for canonical timestamps at offsets 1..32, preferring the later date is the same as comparing those windows as strings |
| Selection.LookupPicker | SatelitoVido.py:178-182 | a name is found exactly when it is `date`, `resolution` or `cloudcover`; any other name is the `KeyError` of line 197 |
| Selection.PickerTable | SatelitoVido.py:178-182 | looking a picker up by its key finds that picker, and every name that is found is the key of the picker it finds |
| Selection.Prefers | SatelitoVido.py:178-182 | the resolution and cloud-cover pickers never fail; the resolution picker prefers the larger resolution and the cloud-cover picker the smaller cloud cover |
| Selection.PrefersHigherScore | SatelitoVido.py:100-127 | on records it can rank, each picker prefers `a` to `b` exactly when `a` has the higher score (later start, larger resolution, or smaller cloud cover) |
| Selection.BestIndex | SatelitoVido.py:197-200 | the index holds a maximal score, and every score before it is strictly smaller |
| Selection.FirstBestUnique | SatelitoVido.py:197-200 | at most one index is the first maximal score, so the tie-break is deterministic |
| Selection.FirstUnreadable | SatelitoVido.py:114-119 | gives no error exactly when every record's start parses |
| Selection.SelectBest | SatelitoVido.py:197-200 | fails exactly when the date picker ranks two or more records and one start is unreadable; otherwise no record is preferred to the chosen one, and it is preferred to every record before it |
| Selection.SingleChoice | SatelitoVido.py:198-200 | a single record is chosen without any comparison and without any parse failure |
| Selection.BestChoice | SatelitoVido.py:197-200 | with two or more rankable records, the first record of best score is a choice |
| Selection.NotPreferredToItself | SatelitoVido.py:100-127 | no picker prefers a record to itself |
| Selection.BestIsPreferred | SatelitoVido.py:197-200 | the first maximal score marks a record no other record is preferred to, and which is preferred to every record before it |
| Selection.ChosenIsBest | SatelitoVido.py:178-200 | the chosen record belongs to the catalog; no record has a larger resolution, a smaller cloud cover, or (with two or more records) a later start, according to the picker |
| Selection.RunFrom | SatelitoVido.py:199 | the first run of the sort extends from `k` to an index between `k` and the list length, unless `cmp` raises |
| Selection.CountRun | SatelitoVido.py:199 | the first run of the sort has between two elements and the whole list |
| Selection.Reverse | SatelitoVido.py:199 | the result has the input's elements in reverse order |
| Selection.ReversePermutes | SatelitoVido.py:199 | reversing a run keeps the same records with the same multiplicities |
| Selection.SortAsWritten | SatelitoVido.py:199 | the sort, when it returns a list, returns a permutation of the catalog; it raises only on two or more records, since a shorter list is never compared |
| Selection.AscendingRunToEnd | SatelitoVido.py:199 | with a comparison that is never negative, the ascending run reaches the end of the list; it fails exactly when a neighbouring comparison raises |
| Selection.SortKeepsOrder | SatelitoVido.py:199 | with a comparison that is never negative, the sort leaves the list unchanged; it raises exactly when a neighbouring comparison raises |
| Selection.PickersNeverNegative | SatelitoVido.py:100-111 | a picker used as a `cmp` function answers 0 or 1, never a negative number |
| Selection.ChosenAsWritten | SatelitoVido.py:197-200 | the program downloads the catalog's first record; it fails exactly in the cases where `SelectBest` fails |
| Selection.DateCmpRaises | SatelitoVido.py:197-199 | some neighbouring comparison raises exactly when the date picker compares two or more records and one start is unreadable |
| Selection.CloudCoverCounterexample | SatelitoVido.py:197-200 | with records of cloud cover 20 and then 5, the program takes the first record, while the least cloudy is the second |
| Selection.SameFailures | SatelitoVido.py:197-200 | the program's selection and the intended selection fail on the same catalogs |
| Pipeline.Save | SatelitoVido.py:204-213 | (corrected) a name is returned exactly when the image was downloaded and the disk cooperated; the file is then `<outfile>.jp2` holding the image bytes |
| Pipeline.SaveAsWritten | SatelitoVido.py:204-210 | every save that returns reports `outfile` as the name; a `TypeError` escapes exactly when the download failed and the file did open |
| Pipeline.SaveTroubleKeepsName | SatelitoVido.py:207-210 | after an `IOError` the program still returns the output name, though nothing was saved |
| Pipeline.FailedDownloadCrashes | SatelitoVido.py:204-206 | a 204 download that fails softly, as the intended `image_fetch` does, makes the program's save write `None` and crash, where the intended save returns no name; the program's own `image_fetch` raises before that point |
| Pipeline.SavesAgreeOnSuccess | SatelitoVido.py:204-210 | with a downloaded image and a writable disk, the program's save and the intended save agree |
| Pipeline.ChooseAndFetch | SatelitoVido.py:191-216 | (corrected) an unknown picker name is exactly the `KeyError` outcome; a run that returns sent the catalog query with the API key first, and it prints the metadata complaint first when the query failed |
| Pipeline.NothingToChoose | SatelitoVido.py:198-213 | with no records, only the catalog query is sent, "No matching image found." is printed last, nothing is saved and no name is returned |
| Pipeline.SomethingToChoose | SatelitoVido.py:197-210 | (corrected) with records, the run fails exactly when a date comparison hits an unreadable start. Otherwise it downloads the path of a chosen record and returns a name exactly when the download and the save worked; a saved file holds the image bytes |
| Pipeline.ChooseAndFetchAsWritten | SatelitoVido.py:191-216 | the program's run under CPython 2.7: a catalog status other than 200 raises before the picker is looked up, with `HTTPError` outside 2xx and on the missing `reason` otherwise; after a 200 catalog an unknown picker name is exactly the `KeyError` outcome; a run that returns sent the catalog query with the API key first and printed at most "No matching image found." or the save complaint |
| Pipeline.SomethingToChooseAsWritten | SatelitoVido.py:197-210 | the program's run with a 200 catalog holding records fails exactly when a date comparison hits an unreadable start or the download is not answered with 200 (then with `HTTPError` outside 2xx and on the missing `reason` otherwise, carrying the image status); otherwise it downloads the first record's path and returns `outfile`, and a file holding the image bytes is saved exactly when the disk is writable |
| Pipeline.NothingToChooseAsWritten | SatelitoVido.py:198-213 | the program's run with a 200 catalog holding no records returns normally after sending only the catalog query and printing only "No matching image found."; it saves nothing and returns no name, whatever the image response and the disk |
| Pipeline.RunsDisagree | SatelitoVido.py:145-210 | a 204 catalog and, on one record, a 204 download crash the program on the missing `reason` but not the corrected run, which returns no name; a file that will not open still yields `outfile` in the program but no name when corrected |
| Pipeline.RunsAgree | SatelitoVido.py:191-216 | when every answer is 200, the disk is writable and the intended choice is the first record, the program's run and the corrected run are equal |
| Selection.FirstComparisonRaises | SatelitoVido.py:122-127 | with the date picker, the sort at line 199 first compares the second record with the first, so an unreadable second start is the error raised |
| Pipeline.FailedQueryLikeEmpty | SatelitoVido.py:145-151 | (corrected) a failed catalog query behaves like an empty successful one: the same requests, file and name, with one more printed line first |
| Timestamp.DaysInMonth | SatelitoVido.py:119 | a month has 28 to 31 days, and 29 exactly for February of a leap year |
| Timestamp.DigitRunEnd | SatelitoVido.py:119 | the index ends the longest run of digits starting at `i` |
| Timestamp.Number | SatelitoVido.py:119 | a numeric field is within its widths and range, is all digits, takes the whole digit run, and has the decimal value of its digits |
| Timestamp.Day | SatelitoVido.py:119 | `%d` reads one or two digits between 1 and 31, or a space and a digit |
| Timestamp.Text | SatelitoVido.py:118-119 | a literal matches exactly when it appears at `i` up to case, and the match ends just after it |
| Timestamp.TextCharwise | SatelitoVido.py:118-119 | a literal matches exactly when it fits in the text and every one of its characters equals, up to case, the text's character at the same offset |
| Timestamp.ScanDirective | SatelitoVido.py:118-119 | each directive reads between its minimum and maximum width |
| Timestamp.MatchSteps | SatelitoVido.py:118-119 | a match captures one value per directive and ends within the full-width span; a match that fills the span read every field at full width, holding the values at the fixed positions |
| Timestamp.MatchLayout | SatelitoVido.py:118-119 | a text longer than 32 characters never matches (unconverted data remains) |
| Timestamp.ParseStart | SatelitoVido.py:118-119 | every parsed start is a valid datetime, and the text it came from has at most 32 characters |
| Timestamp.StartField | SatelitoVido.py:119 | `time[1:33]` clamps to the string: 32 characters from offset 1 when the string has 33 or more, otherwise what follows offset 0 |
| Timestamp.ExtractFirstDate | SatelitoVido.py:114-119 | every start it returns is a valid datetime |
| Timestamp.FullValues | SatelitoVido.py:118-119 | one value is read per directive at full width |
| Timestamp.DirectiveAtFullWidth | SatelitoVido.py:118-119 | a directive read at its maximum width is a full-width field whose value lies in the directive's range |
| Timestamp.FullWidthDirective | SatelitoVido.py:118-119 | a full-width field in range, followed by a non-digit, is read whole with its value |
| Timestamp.FullWidthStep | SatelitoVido.py:118-119 | a match filling the span of `steps` read its first field at full width, and read the rest at full width as well |
| Timestamp.FullWidthMatches | SatelitoVido.py:118-119 | full-width fields within their ranges, with their literals, match and fill the whole span |
| Timestamp.FullWidthRest | SatelitoVido.py:118-119 | the fields after the first are at full width and in range too |
| Timestamp.FirstStepMatches | SatelitoVido.py:118-119 | the first full-width field and its literal match at their fixed positions |
| Timestamp.MatchStepsCons | SatelitoVido.py:118-119 | a match is the first directive, then its literal, then a match of the rest |
| Timestamp.ValidInRanges | SatelitoVido.py:118-119 | the fields of a valid datetime are in the ranges the directives accept |
| Timestamp.BoundsInRanges | SatelitoVido.py:118-119 | field values within the layout's per-directive bounds satisfy the ranges of the layout |
| Timestamp.LayoutDelimited | SatelitoVido.py:118 | each literal of the layout starts with a character that is neither a digit nor a space, and the layout spans 32 characters |
| Timestamp.MatchedFixed | SatelitoVido.py:118-119 | a match of a 32-character text has the fixed layout and yields the numbers at the fixed positions |
| Timestamp.FixedMatched | SatelitoVido.py:118-119 | a 32-character text in the fixed layout with valid fields matches, yielding those fields |
| Timestamp.MatchedWhole | SatelitoVido.py:118-119 | a match that consumes the whole text is the matching stage's result |
| Timestamp.FixedWidthParse | SatelitoVido.py:118-119 | a 32-character text parses exactly when it has the fixed layout and valid fields, and the parse then gives those fields |
| Timestamp.Digits | SatelitoVido.py:118 | writing a field gives exactly `w` digit characters |
| Timestamp.DecimalOfDigits | SatelitoVido.py:118 | reading back the `w` digits written for `v < 10^w` gives `v` |
| Timestamp.DigitsOfDecimal | SatelitoVido.py:118 | writing the value of a digit string at its own width gives the string back |
| Timestamp.FormatSteps | SatelitoVido.py:118 | the written text spans the full width of the steps |
| Timestamp.Format | SatelitoVido.py:118 | the canonical text of a datetime has 32 characters |
| Timestamp.FieldReadsBack | SatelitoVido.py:118-119 | a written field reads back at full width as the value written |
| Timestamp.FormattedAt | SatelitoVido.py:118-119 | written text has every field at full width, holding the values written |
| Timestamp.FormatParses | SatelitoVido.py:118-119 | parsing the canonical text of a valid datetime gives that datetime |
| Timestamp.LaterStrictTotal | SatelitoVido.py:126-127 | `>` on datetimes is irreflexive, asymmetric, transitive and total on distinct values |
| Timestamp.SortKeyOrder | SatelitoVido.py:126-127 | comparing the mixed-radix keys of valid datetimes compares the datetimes |
| Timestamp.DigitsOrder | SatelitoVido.py:118 | zero-padded digit strings of equal width compare as strings the way their values compare, and are equal exactly when the values are |
| Timestamp.FormatOrder | SatelitoVido.py:118 | written field lists compare as strings the way the value lists compare lexicographically |
| Timestamp.FieldsOrder | SatelitoVido.py:126-127 | a datetime is later exactly when its field list is lexicographically greater |
| Timestamp.FormatLexOrder | SatelitoVido.py:118-127 | the canonical texts of two valid datetimes compare as strings the way the datetimes compare |
| Timestamp.ExtractFirstDateWindow | SatelitoVido.py:119 | only offsets 1..32 of the time string decide the start |
| Timestamp.ExtractFirstDateFixed | SatelitoVido.py:114-119 | for a time string of 33 characters or more, the start parses exactly when the window has the fixed layout and valid fields, and it is then the numbers at the fixed positions |
| Timestamp.ExtractFormatted | SatelitoVido.py:114-119 | a time string carrying the canonical text of a valid datetime at offsets 1..32 yields that datetime |
| Timestamp.ShortTimeParses | SatelitoVido.py:114-119 | the 23-character time `[2020-1-2T3:4:5.6+00:00` parses to 2020-01-02 03:04:05.600000 |
| Timestamp.NarrowChain | SatelitoVido.py:118-119 | the sample `2020-1-2T3:4:5.6+00:00` (one-digit month to second and fraction) matches the whole layout and yields 2020, 1, 2, 3, 4, 5 and 600000 |
| Timestamp.NarrowTail | SatelitoVido.py:118-119 | in that sample, the fields from the hour on, each one digit, match and yield 3, 4, 5 and 600000 |
| Timestamp.OneDigitStep | SatelitoVido.py:118-119 | a one-digit field, then its one-character literal, then a match of the rest is a match |
| Timestamp.OneDigitField | SatelitoVido.py:118-119 | every directive except the year and the fraction accepts a single digit followed by a non-digit |
| Timestamp.ShortYear | SatelitoVido.py:118-119 | `2020-` reads as year 2020 followed by its literal |
| Timestamp.ShortFraction | SatelitoVido.py:118-119 | a one-digit `%f` of `6` is 600000 microseconds |

## Left out

- Argument parsing and the defaults (lines 1-97): the picker name, API key and output name are parameters of `Pipeline.ChooseAndFetch` and `Pipeline.ChooseAndFetchAsWritten`.
- The progress lines (lines 183-190 and 158-160): `--verbose` is `store_true` with default `True` (line 94), so they are always printed, the "Loading … byte image" line on every download. They report and decide nothing, and are not modelled.
- The interpreter: the model is CPython 2.7, whose `list.sort(cmp)`, `strptime` and `urllib2` behave as stated here. Lines 13-16 also accept Python 3's `urllib.request`. Under Python 3, `metadata.sort(picker_function)` at line 199 raises `TypeError` on every non-empty catalog, because `list.sort` takes no positional argument; a 2xx status other than 200 fails softly as `Catalog.MetadataFetch` and `Catalog.ImageFetch` state; and `strptime`'s `\d` matches any Unicode decimal digit. Python 3 runs are not modelled.
- The catalog URL built from the window, location and cloud cover (lines 136-140): it is plain string formatting, and the response is an input.
- `urlopen`, HTTP and JSON decoding: the response status, reason and decoded body are inputs. `urlopen` raises `HTTPError` for statuses outside 2xx, which `Catalog.FetchAsWritten` models; the intended `Catalog.MetadataFetch` and `Catalog.ImageFetch` take any status, as the code's `== 200` test reads.
- Printing: the complaint lines (failed metadata, failed image, save trouble, no match) are returned as `Diagnostic` values, not text; the progress lines are left out as above.
- `process_image` and everything after `choose_and_fetch_image`: this model does not cover them.
- Disk I/O: the open and write outcomes are the `Disk` input.
- Selection.ChosenAsWritten: the model covers only sorts whose first run covers the whole list. With the bool-valued pickers that is every sort. Insertion sorting and run merging for comparators that answer negative numbers are not modelled (`MergeNeeded`).
- Selection.Prefers: lines 180-181 hand `compare_for_larger` and `compare_for_smaller` whole record dicts, so Python 2 compares the dicts themselves, not their `resolution` or `cloud_cover` fields. That comparison never raises and answers a bool, so the program still takes the first record (`Selection.ChosenAsWritten` is exact for it). `Prefers` compares the fields, as the picker names intend; the dict ordering itself is not modelled.
- Selection.Prefers: catalog numbers are reals. JSON non-finite values, missing keys and Python 2's mixed-type comparisons are not modelled.
- Timestamp.ExtractFirstDate: digits are ASCII only. That is exact under CPython 2.7, because Python 2.7's `strptime` compiles its pattern with `IGNORECASE` alone, without `UNICODE`.
- Pipeline.ChooseAndFetch: with the date picker and several unreadable starts, the corrected run reports the first unreadable start in catalog order; the program reports the one its sort meets first (`Selection.FirstComparisonRaises`), which `Pipeline.ChooseAndFetchAsWritten` follows.
- Pipeline.ChooseAndFetch: the `KeyError` for an unknown picker (line 197) cannot arise from the command line, because argparse's `choices` at line 80 rejects other names first. The model takes any name and keeps that outcome.
- Catalog.MetadataFetch: states the soft failure that lines 148-151 intend, for every status; Python 3 performs it for a 2xx status other than 200. Under CPython 2.7 a status other than 200 raises instead, `HTTPError` at line 144 outside 2xx and `AttributeError` at line 149 otherwise, which `Catalog.FetchAsWritten` models.
- Catalog.ImageFetch: states the soft failure that lines 168-171 intend, for every status; Python 3 performs it for a 2xx status other than 200. Under CPython 2.7 a status other than 200 raises instead, `HTTPError` at line 164 outside 2xx and `AttributeError` at line 170 otherwise, which `Catalog.FetchAsWritten` models.
- Catalog.FetchAsWritten: the response is the one `urlopen` ends with once it has followed redirects (301, 302, 303, 307); redirect handling, and the `HTTPError` of a redirect it refuses, are not modelled apart from that final status.
- Catalog.FailedQueryLooksEmpty: holds for the intended `metadata_fetch` only; under CPython 2.7 a failed query raises at line 144 or 149 (`Catalog.NotFoundRaises`, `Catalog.NoContentCrashes`).
- Pipeline.FailedQueryLikeEmpty: holds for the corrected run only; under CPython 2.7 a failed query ends the program at line 144 or 149 (`Pipeline.ChooseAndFetchAsWritten`, `Pipeline.RunsDisagree`).
- Timestamp.ShortTimeParses: one example of narrow fields, not a characterisation of every short string; `Timestamp.NarrowChain` and `Timestamp.NarrowTail` are steps of that one example and hold for that sample text only.

## Findings

| source | as written | input that shows it | evidently intended | confidence | as-written member | corrected member |
|---|---|---|---|---|---|---|
| SatelitoVido.py:199-200 | `metadata.sort(picker_function)` uses pickers that return a bool, never a negative number, so Python 2's sort leaves the list unchanged and `metadata[0]` is the catalog's first record | picker `cloudcover` with records of cloud cover 20, then 5 | the least cloudy record is downloaded (likewise the largest resolution and the latest start) | high; not executed | Selection.ChosenAsWritten, Selection.CloudCoverCounterexample, Pipeline.ChooseAndFetchAsWritten | Selection.SelectBest, Selection.ChosenIsBest, Pipeline.ChooseAndFetch, Pipeline.SomethingToChoose |
| SatelitoVido.py:207-210 | after an `IOError` line 209 sets `filename = None`, and line 210 overwrites it with `args.outfile` | the output file cannot be opened | return `None` when nothing was saved | high; not executed | Pipeline.SaveAsWritten, Pipeline.SaveTroubleKeepsName, Pipeline.RunsDisagree | Pipeline.Save, Pipeline.ChooseAndFetch |
| SatelitoVido.py:148-150 | on a 2xx status other than 200 (the only ones `urlopen` lets through) the complaint reads `response.reason`; the CPython 2.7 `urllib2` response keeps the reason phrase in `msg` and has no `reason` attribute, so `AttributeError` escapes before anything is printed | a catalog answered with 204 | print the complaint and go on with no records | high; not executed | Catalog.FetchAsWritten, Catalog.NoContentCrashes, Pipeline.ChooseAndFetchAsWritten, Pipeline.RunsDisagree | Catalog.MetadataFetch, Catalog.FailedQueryLooksEmpty, Pipeline.ChooseAndFetch, Pipeline.FailedQueryLikeEmpty |
| SatelitoVido.py:168-170 | on a 2xx status other than 200 the complaint reads `response.reason`, which the CPython 2.7 response does not have, so `AttributeError` escapes | one record, an image answered with 204 | print the complaint and return `None` | high; not executed | Catalog.FetchAsWritten, Catalog.NoContentCrashes, Pipeline.SomethingToChooseAsWritten, Pipeline.RunsDisagree | Catalog.ImageFetch, Pipeline.ChooseAndFetch, Pipeline.SomethingToChoose |
| SatelitoVido.py:205-206 | a download that failed softly returns `None`, and `write(None)` raises a `TypeError` that `except IOError` does not catch; a latent second defect, reached only once line 170 stops raising | an image answered with 204, read by the intended `image_fetch` | report the failed download, save nothing and return `None` | medium (latent behind line 170); not executed | Pipeline.SaveAsWritten, Pipeline.FailedDownloadCrashes | Pipeline.Save, Pipeline.SomethingToChoose |

=== FILE: catalog.dfy ===
/** The catalog records and the two HTTP fetches of `SatelitoVido.py`, with the
    response taken as an input: the request is built here, the response is
    whatever the server sent back for it. */
module Catalog {
  import opened Wrappers

  /** One object of the catalog's JSON array. JSON numbers are read as reals. */
  datatype ImageRecord = ImageRecord(time: string, resolution: real, cloudCover: real,
                                     size: int, downloadPath: string)

  /** The raw bytes of an image. */
  type Bytes = seq<bv8>

  /** HTTP headers sent with a request. */
  type Headers = map<string, string>

  /** The requests the program sends. The catalog URL is built from the
      command-line window and location, which are not part of this model. */
  datatype Request =
    | CatalogQuery(headers: Headers)
    | ImageDownload(path: string, headers: Headers)

  /** What `urlopen` hands back: the status code, its reason phrase, and the
      body (decoded JSON for the catalog, raw bytes for an image). */
  datatype Response<T> = Response(status: int, reason: string, body: T)

  /** The lines the program prints when something goes wrong. */
  datatype Diagnostic =
    | MetadataFailed(status: int, reason: string)   // "Failed to download image metadata (..): .."
    | ImageFailed(status: int, reason: string)      // "Failed to download image (..): .."
    | SaveTrouble                                   // "Trouble saving file: .."
    | NoMatch                                       // "No matching image found."

  /** The statuses CPython 2.7's `urlopen` hands back as a response: its
      `HTTPErrorProcessor` raises `HTTPError` for every other one. */
  predicate Successful(status: int) {
    200 <= status < 300
  }

  /** How a fetch as written raises, with the status that led there. */
  datatype FetchError =
      /** `HTTPError` from `urlopen`, for a status outside 200..299. */
    | HttpError(status: int)
      /** `AttributeError` from reading `response.reason`: a CPython 2.7
          `urllib2` response keeps the reason phrase in `msg` and has no
          `reason` attribute. */
    | NoReason(status: int)

  /** A fetch's value and what it printed. */
  datatype Fetched<T> = Fetched(value: T, report: Option<Diagnostic>)

  /** The header map of every request: the API key and nothing else. */
  function ApiHeaders(apiKey: string): (h: Headers)
    ensures h.Keys == {"x-api-key"} && h["x-api-key"] == apiKey
  {
    map["x-api-key" := apiKey]
  }

  /** `metadata_fetch` as intended: the decoded records on status 200; on any
      other status a printed complaint and an empty list instead of an
      exception. This is also what it does where the response has a
      `reason` attribute, as under Python 3. */
  function MetadataFetch(response: Response<seq<ImageRecord>>): (r: Fetched<seq<ImageRecord>>)
    ensures response.status == 200 ==> r.value == response.body && r.report == None
    ensures response.status != 200 ==>
              r.value == [] && r.report == Some(MetadataFailed(response.status, response.reason))
  {
    if response.status == 200 then Fetched(response.body, None)
    else Fetched([], Some(MetadataFailed(response.status, response.reason)))
  }

  /** The request `image_fetch` sends for a record. */
  function ImageRequest(record: ImageRecord, headers: Headers): (q: Request)
    ensures q.ImageDownload? && q.path == record.downloadPath && q.headers == headers
  {
    ImageDownload(record.downloadPath, headers)
  }

  /** `image_fetch` as intended: the body on status 200; on any other status
      a printed complaint and `None` instead of an exception. */
  function ImageFetch(response: Response<Bytes>): (r: Fetched<Option<Bytes>>)
    ensures r.value.Some? <==> response.status == 200
    ensures r.value.Some? ==> r.value.value == response.body && r.report == None
    ensures r.value.None? ==> r.report == Some(ImageFailed(response.status, response.reason))
  {
    if response.status == 200 then Fetched(Some(response.body), None)
    else Fetched(None, Some(ImageFailed(response.status, response.reason)))
  }

  /** `metadata_fetch` and `image_fetch` as they run under CPython 2.7: the
      body (decoded records, or image bytes) on status 200; `urlopen` raises
      on a status outside 200..299; on any other 2xx status the complaint's
      arguments read `response.reason`, which raises before anything is
      printed. */
  function FetchAsWritten<T>(response: Response<T>): (r: Result<T, FetchError>)
    ensures r.Success? <==> response.status == 200
    ensures r.Success? ==> r.value == response.body
    ensures r.Failure? ==> r.error.status == response.status
    ensures r.Failure? ==> (r.error.NoReason? <==> Successful(response.status))
  {
    if response.status == 200 then Success(response.body)
    else if Successful(response.status) then Failure(NoReason(response.status))
    else Failure(HttpError(response.status))
  }

  /** On status 200 the fetches as written and as intended give the same
      value and print nothing; on any other status the ones as written
      raise where the intended ones print a complaint and go on. */
  lemma FetchesAgree(catalog: Response<seq<ImageRecord>>, image: Response<Bytes>)
    ensures catalog.status == 200 ==>
              FetchAsWritten(catalog) == Success(MetadataFetch(catalog).value)
              && MetadataFetch(catalog).report == None
    ensures image.status == 200 ==>
              FetchAsWritten(image) == Success(ImageFetch(image).value.value)
              && ImageFetch(image).report == None
    ensures catalog.status != 200 ==>
              FetchAsWritten(catalog).Failure? && MetadataFetch(catalog).report.Some?
    ensures image.status != 200 ==>
              FetchAsWritten(image).Failure? && ImageFetch(image).report.Some?
  {
  }

  /** A 204 answer crashes both fetches as written, where the intended ones
      give an empty list and `None`. */
  lemma NoContentCrashes()
    ensures var catalog: Response<seq<ImageRecord>> := Response(204, "No Content", []);
            FetchAsWritten(catalog) == Failure(NoReason(204)) && MetadataFetch(catalog).value == []
    ensures var image: Response<Bytes> := Response(204, "No Content", []);
            FetchAsWritten(image) == Failure(NoReason(204)) && ImageFetch(image).value == None
  {
  }

  /** A 404 answer makes `urlopen` raise in both fetches as written, before
      the status is looked at. */
  lemma NotFoundRaises()
    ensures var catalog: Response<seq<ImageRecord>> := Response(404, "Not Found", []);
            FetchAsWritten(catalog) == Failure(HttpError(404)) && MetadataFetch(catalog).value == []
    ensures var image: Response<Bytes> := Response(404, "Not Found", []);
            FetchAsWritten(image) == Failure(HttpError(404)) && ImageFetch(image).value == None
  {
  }

  /** A failed catalog query is indistinguishable, by its records, from a
      successful query that found nothing. */
  lemma FailedQueryLooksEmpty(failed: Response<seq<ImageRecord>>, reason: string)
    requires failed.status != 200
    ensures MetadataFetch(failed).value == MetadataFetch(Response(200, reason, [])).value
    ensures MetadataFetch(failed).report.Some?
  {
  }
}

=== FILE: comparators.dfy ===
/** The three preference predicates of the picker table: each says whether its
    first argument is preferred to its second. */
module Comparators {
  import opened Wrappers
  import opened Timestamp
  import opened Catalog

  /** `compare_for_larger`: favours the bigger number. */
  function CompareForLarger(a: real, b: real): bool {
    a > b
  }

  /** `compare_for_smaller`: favours the smaller number. */
  function CompareForSmaller(a: real, b: real): bool {
    a < b
  }

  /** Both numeric predicates are strict orders, and each is the other with
      its arguments swapped: equal values are never preferred to each other. */
  lemma NumericPreferences(a: real, b: real, c: real)
    ensures !CompareForLarger(a, a) && !CompareForSmaller(a, a)
    ensures CompareForLarger(a, b) ==> !CompareForLarger(b, a)
    ensures CompareForSmaller(a, b) ==> !CompareForSmaller(b, a)
    ensures CompareForLarger(a, b) && CompareForLarger(b, c) ==> CompareForLarger(a, c)
    ensures CompareForSmaller(a, b) && CompareForSmaller(b, c) ==> CompareForSmaller(a, c)
    ensures CompareForLarger(a, b) <==> CompareForSmaller(b, a)
    ensures a != b ==> CompareForLarger(a, b) || CompareForLarger(b, a)
  {
  }

  /** `compare_first_dates`: the start of `a`'s time range is later than the
      start of `b`'s. The first argument is parsed first, so its error is the
      one raised when both are malformed. */
  function CompareFirstDates(a: ImageRecord, b: ImageRecord): (r: Result<bool, ParseError>)
    ensures r.Success? <==> ExtractFirstDate(a.time).Success? && ExtractFirstDate(b.time).Success?
    ensures r.Success? ==>
              (r.value <==> SortKey(ExtractFirstDate(a.time).value) > SortKey(ExtractFirstDate(b.time).value))
    ensures ExtractFirstDate(a.time).Failure? ==> r == Failure(ExtractFirstDate(a.time).error)
    ensures ExtractFirstDate(a.time).Success? && ExtractFirstDate(b.time).Failure? ==>
              r == Failure(ExtractFirstDate(b.time).error)
  {
    var first :- ExtractFirstDate(a.time);
    var second :- ExtractFirstDate(b.time);
    SortKeyOrder(first, second);
    Success(Later(first, second))
  }

  /** The date preference is a strict order on records whose times parse. */
  lemma DatePreference(a: ImageRecord, b: ImageRecord, c: ImageRecord)
    requires ExtractFirstDate(a.time).Success? && ExtractFirstDate(b.time).Success?
    requires ExtractFirstDate(c.time).Success?
    ensures !CompareFirstDates(a, a).value
    ensures CompareFirstDates(a, b).value ==> !CompareFirstDates(b, a).value
    ensures CompareFirstDates(a, b).value && CompareFirstDates(b, c).value ==> CompareFirstDates(a, c).value
  {
    LaterStrictTotal(ExtractFirstDate(a.time).value, ExtractFirstDate(b.time).value,
                     ExtractFirstDate(c.time).value);
  }

  /** For records whose time strings carry canonical timestamps at offsets
      1..32, the date preference is plain string order of those windows. */
  lemma DatePreferenceIsTextOrder(a: ImageRecord, b: ImageRecord, ta: DateTime, tb: DateTime)
    requires Valid(ta) && Valid(tb)
    requires |a.time| >= 33 && a.time[1..33] == Format(ta)
    requires |b.time| >= 33 && b.time[1..33] == Format(tb)
    ensures CompareFirstDates(a, b).Success?
    ensures CompareFirstDates(a, b).value <==> LexLess(b.time[1..33], a.time[1..33])
  {
    ExtractFormatted(a.time, ta);
    ExtractFormatted(b.time, tb);
    FormatLexOrder(ta, tb);
  }
}

=== FILE: pipeline.dfy ===
/** `choose_and_fetch_image` after the command line has been parsed: query the
    catalog, look the picker up, choose a record, download it and save it as
    `<outfile>.jp2`. The network and the disk are inputs: the two responses
    the server gives and what happens when the file is opened and written. */
module Pipeline {
  import opened Wrappers
  import opened Timestamp
  import opened Catalog
  import opened Selection

  /** What saving the image meets on disk. */
  datatype Disk =
    | Writable     // the file opens and the write goes through
    | OpenFails    // `open` raises `IOError`
    | WriteFails   // `write` raises `IOError`

  /** An exception that leaves the function. */
  datatype Crash =
    | UnknownPicker(name: string)     // `KeyError` from the picker table
    | BadTimestamp(error: ParseError) // `ValueError` from `strptime` during the sort
    | WroteNone                       // `TypeError` from `write(None)`
    | Unfetched(fault: FetchError)    // `HTTPError` or `AttributeError` from a fetch

  /** Everything a run that returns does: the requests it sent, the lines it
      printed, the file it wrote and the name it returns. */
  datatype Outcome = Outcome(requests: seq<Request>, reports: seq<Diagnostic>,
                             saved: Option<(string, Bytes)>, filename: Option<string>)

  /** The `.jp2` save and what it makes of the file name, as intended: a file
      name is returned only when the image was downloaded and written. */
  function Save(image: Option<Bytes>, disk: Disk, outfile: string): (r: Outcome)
    ensures r.requests == []
    ensures r.filename.Some? <==> image.Some? && disk == Writable
    ensures r.filename.Some? ==> r.filename.value == outfile
    ensures r.saved.Some? <==> r.filename.Some?
    ensures r.saved.Some? ==> r.saved.value == (outfile + ".jp2", image.value)
  {
    if image.None? then Outcome([], [], None, None)
    else if disk != Writable then Outcome([], [SaveTrouble], None, None)
    else Outcome([], [], Some((outfile + ".jp2", image.value)), Some(outfile))
  }

  /** The save as the program is written: on `IOError` the name is set to
      `None` and then overwritten with `outfile` on the next line, and a
      failed download reaches `write(None)`, whose `TypeError` is not caught. */
  function SaveAsWritten(image: Option<Bytes>, disk: Disk, outfile: string): (r: Result<Outcome, Crash>)
    ensures r.Success? ==> r.value.filename == Some(outfile)
    ensures r.Failure? <==> image.None? && disk != OpenFails
  {
    if disk == OpenFails then Success(Outcome([], [SaveTrouble], None, Some(outfile)))
    else if image.None? then Failure(WroteNone)
    else if disk == WriteFails then Success(Outcome([], [SaveTrouble], None, Some(outfile)))
    else Success(Outcome([], [], Some((outfile + ".jp2", image.value)), Some(outfile)))
  }

  /** The program returns a file name although nothing was saved. */
  lemma SaveTroubleKeepsName()
    ensures SaveAsWritten(Some([1]), OpenFails, "img") == Success(Outcome([], [SaveTrouble], None, Some("img")))
    ensures Save(Some([1]), OpenFails, "img").filename == None
  {
  }

  /** A download that failed softly, as the intended `image_fetch` does,
      would crash the save at `write(None)`. The program's own `image_fetch`
      raises before that, so this defect lies behind the one at its line 170. */
  lemma FailedDownloadCrashes()
    ensures SaveAsWritten(ImageFetch(Response(204, "No Content", [])).value, Writable, "img") == Failure(WroteNone)
    ensures Save(ImageFetch(Response(204, "No Content", [])).value, Writable, "img").filename == None
  {
  }

  /** The two saves agree whenever the download succeeded and the disk
      cooperated. */
  lemma SavesAgreeOnSuccess(image: Bytes, outfile: string)
    ensures SaveAsWritten(Some(image), Writable, outfile) == Success(Save(Some(image), Writable, outfile))
  {
  }

  /** One run of `choose_and_fetch_image`. The picker is looked up after the
      catalog query and before the list is inspected, so an unknown name
      fails even when there is nothing to choose from. */
  function ChooseAndFetch(apiKey: string, pickerName: string,
                          catalog: Response<seq<ImageRecord>>, image: Response<Bytes>,
                          disk: Disk, outfile: string): (r: Result<Outcome, Crash>)
    ensures LookupPicker(pickerName).None? <==> r == Failure(UnknownPicker(pickerName))
    ensures r.Success? ==> |r.value.requests| >= 1 && r.value.requests[0] == CatalogQuery(ApiHeaders(apiKey))
    ensures r.Success? && catalog.status != 200 ==>
              |r.value.reports| >= 1 && r.value.reports[0] == MetadataFailed(catalog.status, catalog.reason)
  {
    var headers := ApiHeaders(apiKey);
    var fetched := MetadataFetch(catalog);
    var query := [CatalogQuery(headers)];
    var reports := Reports(fetched.report);
    var picker := LookupPicker(pickerName);
    if picker.None? then Failure(UnknownPicker(pickerName))
    else if |fetched.value| == 0 then Success(Outcome(query, reports + [NoMatch], None, None))
    else
      match SelectBest(picker.value, fetched.value)
      case Failure(e) => Failure(BadTimestamp(e))
      case Success(k) =>
        var download := ImageFetch(image);
        var saved := Save(download.value, disk, outfile);
        Success(Outcome(query + [ImageRequest(fetched.value[k], headers)],
                        reports + Reports(download.report) + saved.reports,
                        saved.saved, saved.filename))
  }

  /** Printed lines of a fetch. */
  function Reports(d: Option<Diagnostic>): seq<Diagnostic> {
    if d.Some? then [d.value] else []
  }

  /** With nothing to choose from the run sends no second request, reports
      that nothing matched and returns no file name. */
  lemma NothingToChoose(apiKey: string, pickerName: string, catalog: Response<seq<ImageRecord>>,
                        image: Response<Bytes>, disk: Disk, outfile: string)
    requires LookupPicker(pickerName).Some? && MetadataFetch(catalog).value == []
    ensures var r := ChooseAndFetch(apiKey, pickerName, catalog, image, disk, outfile);
            && r.Success?
            && r.value.requests == [CatalogQuery(ApiHeaders(apiKey))]
            && r.value.reports[|r.value.reports| - 1] == NoMatch
            && r.value.saved == None && r.value.filename == None
  {
  }

  /** With records to choose from, the run either fails on an unreadable
      start (date picker only) or downloads exactly the chosen record's path,
      and returns a file name exactly when the download and the save worked. */
  lemma SomethingToChoose(apiKey: string, pickerName: string, catalog: Response<seq<ImageRecord>>,
                          image: Response<Bytes>, disk: Disk, outfile: string)
    requires LookupPicker(pickerName).Some? && |MetadataFetch(catalog).value| > 0
    ensures var rs := MetadataFetch(catalog).value;
            var p := LookupPicker(pickerName).value;
            var r := ChooseAndFetch(apiKey, pickerName, catalog, image, disk, outfile);
            && (r.Failure? <==> DatesUnreadable(p, rs))
            && (r.Failure? ==> r.error.BadTimestamp?)
            && (r.Success? ==>
                  && |r.value.requests| == 2
                  && (exists k: nat | IsChoice(p, rs, k) :: r.value.requests[1] == ImageDownload(rs[k].downloadPath, ApiHeaders(apiKey)))
                  && (r.value.filename.Some? <==> image.status == 200 && disk == Writable)
                  && (r.value.saved.Some? ==> r.value.saved.value == (outfile + ".jp2", image.body)))
  {
    var rs := MetadataFetch(catalog).value;
    var p := LookupPicker(pickerName).value;
    var s := SelectBest(p, rs);
    if s.Success? {
      assert IsChoice(p, rs, s.value);
    }
  }

  /** One run of `choose_and_fetch_image` as the program is written and
      run under CPython 2.7: a catalog status other than 200 raises before
      the picker is looked up; the picker's sort leaves the catalog order
      alone, so the first record is downloaded (or the sort's first
      comparison raises); an image status other than 200 raises too; the file
      name comes from the save as written. */
  function ChooseAndFetchAsWritten(apiKey: string, pickerName: string,
                                   catalog: Response<seq<ImageRecord>>, image: Response<Bytes>,
                                   disk: Disk, outfile: string): (r: Result<Outcome, Crash>)
    ensures catalog.status != 200 ==>
              r == Failure(Unfetched(if Successful(catalog.status) then NoReason(catalog.status)
                                     else HttpError(catalog.status)))
    ensures catalog.status == 200 ==>
              (LookupPicker(pickerName).None? <==> r == Failure(UnknownPicker(pickerName)))
    ensures r.Success? ==> |r.value.requests| >= 1 && r.value.requests[0] == CatalogQuery(ApiHeaders(apiKey))
    ensures r.Success? ==> r.value.reports == [NoMatch] || r.value.reports == [SaveTrouble] || r.value.reports == []
  {
    var headers := ApiHeaders(apiKey);
    var query := [CatalogQuery(headers)];
    match FetchAsWritten(catalog)
    case Failure(e) => Failure(Unfetched(e))
    case Success(records) =>
      var picker := LookupPicker(pickerName);
      if picker.None? then Failure(UnknownPicker(pickerName))
      else if |records| == 0 then Success(Outcome(query, [NoMatch], None, None))
      else
        match ChosenAsWritten(picker.value, records)
        case Failure(e) => Failure(BadTimestamp(e))
        case Success(chosen) =>
          match FetchAsWritten(image)
          case Failure(e) => Failure(Unfetched(e))
          case Success(bytes) =>
            match SaveAsWritten(Some(bytes), disk, outfile)
            case Failure(c) => Failure(c)
            case Success(saved) =>
              Success(Outcome(query + [ImageRequest(chosen, headers)], saved.reports,
                              saved.saved, saved.filename))
  }

  /** With a catalog that answered 200 and holds no records, the program as
      written sends no second request, prints only that nothing matched and
      returns no file name, whatever the image response and the disk. */
  lemma NothingToChooseAsWritten(apiKey: string, pickerName: string, catalog: Response<seq<ImageRecord>>,
                                 image: Response<Bytes>, disk: Disk, outfile: string)
    requires LookupPicker(pickerName).Some? && catalog.status == 200 && catalog.body == []
    ensures var r := ChooseAndFetchAsWritten(apiKey, pickerName, catalog, image, disk, outfile);
            && r.Success?
            && r.value.requests == [CatalogQuery(ApiHeaders(apiKey))]
            && r.value.reports == [NoMatch]
            && r.value.saved == None && r.value.filename == None
  {
  }

  /** With records to choose from, the program as written fails exactly when
      the date picker meets an unreadable start or the download is not
      answered with 200, the latter in `urlopen` outside 2xx and on reading
      the missing `reason` otherwise;
      otherwise it downloads the first record's path and returns the file
      name whether or not anything was saved. */
  lemma SomethingToChooseAsWritten(apiKey: string, pickerName: string, catalog: Response<seq<ImageRecord>>,
                                   image: Response<Bytes>, disk: Disk, outfile: string)
    requires LookupPicker(pickerName).Some? && catalog.status == 200 && |catalog.body| > 0
    ensures var rs := catalog.body;
            var p := LookupPicker(pickerName).value;
            var r := ChooseAndFetchAsWritten(apiKey, pickerName, catalog, image, disk, outfile);
            && (r.Failure? <==> DatesUnreadable(p, rs) || image.status != 200)
            && (r.Failure? && !DatesUnreadable(p, rs) ==>
                  r.error == Unfetched(if Successful(image.status) then NoReason(image.status)
                                       else HttpError(image.status)))
            && (r.Success? ==>
                  && r.value.requests == [CatalogQuery(ApiHeaders(apiKey)), ImageDownload(rs[0].downloadPath, ApiHeaders(apiKey))]
                  && r.value.filename == Some(outfile)
                  && (r.value.saved.Some? <==> disk == Writable)
                  && (r.value.saved.Some? ==> r.value.saved.value == (outfile + ".jp2", image.body)))
  {
  }

  /** The two runs disagree: a catalog answered with 204 (date picker), and a
      download answered with 204 (one record, resolution picker), crash the
      program but not the corrected run, and a file that will not open still yields
      a file name as written, and none when corrected. */
  lemma RunsDisagree(rec: ImageRecord, disk: Disk)
    ensures var empty := Response(204, "No Content", []);
            var ok := Response(200, "OK", [1]);
            && ChooseAndFetchAsWritten("key", "date", empty, ok, disk, "img") == Failure(Unfetched(NoReason(204)))
            && ChooseAndFetch("key", "date", empty, ok, disk, "img").Success?
            && ChooseAndFetch("key", "date", empty, ok, disk, "img").value.filename == None
    ensures var catalog := Response(200, "OK", [rec]);
            var empty := Response(204, "No Content", []);
            && ChooseAndFetchAsWritten("key", "resolution", catalog, empty, disk, "img") == Failure(Unfetched(NoReason(204)))
            && ChooseAndFetch("key", "resolution", catalog, empty, disk, "img").Success?
            && ChooseAndFetch("key", "resolution", catalog, empty, disk, "img").value.filename == None
    ensures var catalog := Response(200, "OK", [rec]);
            var ok := Response(200, "OK", [1]);
            && ChooseAndFetchAsWritten("key", "resolution", catalog, ok, OpenFails, "img").value.filename == Some("img")
            && ChooseAndFetch("key", "resolution", catalog, ok, OpenFails, "img").value.filename == None
  {
  }

  /** The outcome of a run in which every answer is 200, the disk is
      writable and the first record is downloaded. */
  function Fetched200(apiKey: string, first: ImageRecord, image: Bytes, outfile: string): Outcome {
    var h := ApiHeaders(apiKey);
    Outcome([CatalogQuery(h)] + [ImageRequest(first, h)], [], Some((outfile + ".jp2", image)), Some(outfile))
  }

  /** Where every answer is 200, the disk is writable and the intended
      choice is the catalog's first record, the program as written and the
      corrected run do the same thing. */
  lemma RunsAgree(apiKey: string, pickerName: string, catalog: Response<seq<ImageRecord>>,
                  image: Response<Bytes>, outfile: string)
    requires catalog.status == 200 && image.status == 200
    requires LookupPicker(pickerName).Some? && |catalog.body| > 0
    requires SelectBest(LookupPicker(pickerName).value, catalog.body) == Success(0)
    ensures ChooseAndFetchAsWritten(apiKey, pickerName, catalog, image, Writable, outfile)
            == ChooseAndFetch(apiKey, pickerName, catalog, image, Writable, outfile)
  {
    CorrectedRun200(apiKey, pickerName, catalog, image, outfile);
    AsWrittenRun200(apiKey, pickerName, catalog, image, outfile);
  }

  lemma CorrectedRun200(apiKey: string, pickerName: string, catalog: Response<seq<ImageRecord>>,
                        image: Response<Bytes>, outfile: string)
    requires catalog.status == 200 && image.status == 200
    requires LookupPicker(pickerName).Some? && |catalog.body| > 0
    requires SelectBest(LookupPicker(pickerName).value, catalog.body) == Success(0)
    ensures ChooseAndFetch(apiKey, pickerName, catalog, image, Writable, outfile)
            == Success(Fetched200(apiKey, catalog.body[0], image.body, outfile))
  {
    assert MetadataFetch(catalog) == Fetched(catalog.body, None);
    assert ImageFetch(image) == Fetched(Some(image.body), None);
  }

  lemma AsWrittenRun200(apiKey: string, pickerName: string, catalog: Response<seq<ImageRecord>>,
                        image: Response<Bytes>, outfile: string)
    requires catalog.status == 200 && image.status == 200
    requires LookupPicker(pickerName).Some? && |catalog.body| > 0
    requires SelectBest(LookupPicker(pickerName).value, catalog.body) == Success(0)
    ensures ChooseAndFetchAsWritten(apiKey, pickerName, catalog, image, Writable, outfile)
            == Success(Fetched200(apiKey, catalog.body[0], image.body, outfile))
  {
    var p, rs := LookupPicker(pickerName).value, catalog.body;
    SameFailures(p, rs);
    assert ChosenAsWritten(p, rs) == Success(rs[0]);
    assert SaveAsWritten(Some(image.body), Writable, outfile)
           == Success(Outcome([], [], Some((outfile + ".jp2", image.body)), Some(outfile)));
  }

  /** A catalog query that fails is handled like one that succeeds with no
      records: the same requests, the same file, the same name, with one more
      line printed first. */
  lemma FailedQueryLikeEmpty(apiKey: string, pickerName: string, failed: Response<seq<ImageRecord>>,
                             reason: string, image: Response<Bytes>, disk: Disk, outfile: string)
    requires failed.status != 200
    ensures var r1 := ChooseAndFetch(apiKey, pickerName, failed, image, disk, outfile);
            var r2 := ChooseAndFetch(apiKey, pickerName, Response(200, reason, []), image, disk, outfile);
            && r1.Success? == r2.Success?
            && (r1.Success? ==>
                  && r1.value.requests == r2.value.requests
                  && r1.value.saved == r2.value.saved && r1.value.filename == r2.value.filename
                  && r1.value.reports == [MetadataFailed(failed.status, failed.reason)] + r2.value.reports)
  {
  }
}

=== FILE: selection.dfy ===
/** The picker table of `choose_and_fetch_image` and the choice of the record
    to download.

    The program sorts the catalog with `metadata.sort(picker)` and takes the
    first element. Under Python 2 a `cmp` function must return a negative,
    zero or positive number; the pickers return a bool, which is 0 or 1 and
    never negative, so the sort never sees an element that belongs before its
    predecessor and leaves the list as it is. `SortAsWritten` models that;
    `SelectBest` is the choice the pickers are named for (their docstrings
    say "favoring bigger" and "favoring smaller", and `compare_first_dates`
    prefers the later start): a record no other record is preferred to, the
    earliest such record on ties. */
module Selection {
  import opened Wrappers
  import opened Timestamp
  import opened Catalog
  import opened Comparators

  /** The entries of the picker table. */
  datatype Picker = ByDate | ByResolution | ByCloudCover

  /** The key under which each picker is stored. */
  function PickerName(p: Picker): string {
    match p
    case ByDate => "date"
    case ByResolution => "resolution"
    case ByCloudCover => "cloudcover"
  }

  /** `pickers[name]`: `None` is the `KeyError` of a name not in the table. */
  function LookupPicker(name: string): (r: Option<Picker>)
    ensures r.Some? <==> name in {"date", "resolution", "cloudcover"}
  {
    if name == "date" then Some(ByDate)
    else if name == "resolution" then Some(ByResolution)
    else if name == "cloudcover" then Some(ByCloudCover)
    else None
  }

  /** Looking a picker up by its key finds it, and a name that is found is
      that picker's key. */
  lemma PickerTable(p: Picker, name: string)
    ensures LookupPicker(PickerName(p)) == Some(p)
    ensures LookupPicker(name).Some? ==> PickerName(LookupPicker(name).value) == name
  {
  }

  /** Whether picker `p` prefers record `a` to record `b`. The numeric pickers
      compare the field they are named after. */
  function Prefers(p: Picker, a: ImageRecord, b: ImageRecord): (r: Result<bool, ParseError>)
    ensures p != ByDate ==> r.Success?
    ensures p == ByResolution ==> (r.value <==> a.resolution > b.resolution)
    ensures p == ByCloudCover ==> (r.value <==> a.cloudCover < b.cloudCover)
  {
    match p
    case ByDate => CompareFirstDates(a, b)
    case ByResolution => Success(CompareForLarger(a.resolution, b.resolution))
    case ByCloudCover => Success(CompareForSmaller(a.cloudCover, b.cloudCover))
  }

  /** A record the picker can rank: the date picker needs a readable start. */
  predicate Rankable(p: Picker, r: ImageRecord) {
    p != ByDate || ExtractFirstDate(r.time).Success?
  }

  /** A number for each rankable record such that the picker prefers the
      record with the higher number. */
  function Score(p: Picker, r: ImageRecord): real
    requires Rankable(p, r)
  {
    match p
    case ByDate => SortKey(ExtractFirstDate(r.time).value) as real
    case ByResolution => r.resolution
    case ByCloudCover => -r.cloudCover
  }

  lemma PrefersHigherScore(p: Picker, a: ImageRecord, b: ImageRecord)
    requires Rankable(p, a) && Rankable(p, b)
    ensures Prefers(p, a, b).Success?
    ensures Prefers(p, a, b).value <==> Score(p, a) > Score(p, b)
  {
  }

  /** `k` holds a maximal score, and every score before it is smaller. */
  predicate FirstBest(scores: seq<real>, k: nat) {
    && k < |scores|
    && (forall j | 0 <= j < |scores| :: scores[j] <= scores[k])
    && (forall j | 0 <= j < k :: scores[j] < scores[k])
  }

  /** The position of the first maximal score. */
  function BestIndex(scores: seq<real>): (k: nat)
    requires |scores| > 0
    ensures FirstBest(scores, k)
  {
    if |scores| == 1 then 0
    else
      var k := BestIndex(scores[..|scores| - 1]);
      if scores[|scores| - 1] > scores[k] then |scores| - 1 else k
  }

  /** At most one position is the first maximal score. */
  lemma FirstBestUnique(scores: seq<real>, k1: nat, k2: nat)
    requires FirstBest(scores, k1) && FirstBest(scores, k2)
    ensures k1 == k2
  {
    var s1, s2 := scores[k1], scores[k2];
  }

  function Scores(p: Picker, rs: seq<ImageRecord>): (s: seq<real>)
    requires forall j | 0 <= j < |rs| :: Rankable(p, rs[j])
    ensures |s| == |rs| && forall j | 0 <= j < |rs| :: s[j] == Score(p, rs[j])
  {
    seq(|rs|, j requires 0 <= j < |rs| => Score(p, rs[j]))
  }

  /** The first record, in catalog order, whose start cannot be read. */
  function FirstUnreadable(rs: seq<ImageRecord>): (r: Option<ParseError>)
    ensures r.None? <==> forall j | 0 <= j < |rs| :: ExtractFirstDate(rs[j].time).Success?
  {
    if |rs| == 0 then None
    else if ExtractFirstDate(rs[0].time).Failure? then Some(ExtractFirstDate(rs[0].time).error)
    else FirstUnreadable(rs[1..])
  }

  /** No record is preferred to `rs[k]`, and `rs[k]` is preferred to every
      record before it: the first of the best. */
  predicate IsChoice(p: Picker, rs: seq<ImageRecord>, k: nat) {
    && k < |rs|
    && (forall j | 0 <= j < |rs| :: !(Prefers(p, rs[j], rs[k]).Success? && Prefers(p, rs[j], rs[k]).value))
    && (forall j | 0 <= j < k :: Prefers(p, rs[k], rs[j]).Success? && Prefers(p, rs[k], rs[j]).value)
  }

  /** The date picker has two or more records to compare and one of them has
      an unreadable start. */
  predicate DatesUnreadable(p: Picker, rs: seq<ImageRecord>) {
    p == ByDate && |rs| >= 2 && exists j | 0 <= j < |rs| :: ExtractFirstDate(rs[j].time).Failure?
  }

  /** The index of the record to download. A single record is taken without
      comparing it to anything; the date picker ranking two or more records
      fails when one of them has an unreadable start. */
  function SelectBest(p: Picker, rs: seq<ImageRecord>): (r: Result<nat, ParseError>)
    requires |rs| > 0
    ensures r.Failure? <==> DatesUnreadable(p, rs)
    ensures r.Success? ==> IsChoice(p, rs, r.value)
  {
    if |rs| == 1 then
      SingleChoice(p, rs);
      Success(0)
    else if p == ByDate && FirstUnreadable(rs).Some? then
      Failure(FirstUnreadable(rs).value)
    else
      BestChoice(p, rs);
      Success(BestIndex(Scores(p, rs)))
  }

  lemma SingleChoice(p: Picker, rs: seq<ImageRecord>)
    requires |rs| == 1
    ensures IsChoice(p, rs, 0) && !DatesUnreadable(p, rs)
  {
    var r := rs[0];
    NotPreferredToItself(p, r);
    assert forall j | 0 <= j < |rs| :: rs[j] == r;
  }

  lemma BestChoice(p: Picker, rs: seq<ImageRecord>)
    requires |rs| >= 2 && !(p == ByDate && FirstUnreadable(rs).Some?)
    ensures forall j | 0 <= j < |rs| :: Rankable(p, rs[j])
    ensures !DatesUnreadable(p, rs) && IsChoice(p, rs, BestIndex(Scores(p, rs)))
  {
    BestIsPreferred(p, rs, BestIndex(Scores(p, rs)));
  }

  lemma NotPreferredToItself(p: Picker, r: ImageRecord)
    ensures !(Prefers(p, r, r).Success? && Prefers(p, r, r).value)
  {
    if Prefers(p, r, r).Success? && p == ByDate {
      LaterStrictTotal(ExtractFirstDate(r.time).value, ExtractFirstDate(r.time).value,
                       ExtractFirstDate(r.time).value);
    }
  }

  lemma BestIsPreferred(p: Picker, rs: seq<ImageRecord>, k: nat)
    requires forall j | 0 <= j < |rs| :: Rankable(p, rs[j])
    requires FirstBest(Scores(p, rs), k)
    ensures IsChoice(p, rs, k)
  {
    forall j | 0 <= j < |rs| ensures !(Prefers(p, rs[j], rs[k]).Success? && Prefers(p, rs[j], rs[k]).value) {
      PrefersHigherScore(p, rs[j], rs[k]);
    }
    forall j | 0 <= j < k ensures Prefers(p, rs[k], rs[j]).Success? && Prefers(p, rs[k], rs[j]).value {
      PrefersHigherScore(p, rs[k], rs[j]);
    }
  }

  /** The chosen record is in the catalog and none is better in the picker's
      own terms: no later start, no larger resolution, no smaller cloud cover. */
  lemma ChosenIsBest(p: Picker, rs: seq<ImageRecord>)
    requires |rs| > 0 && SelectBest(p, rs).Success?
    ensures rs[SelectBest(p, rs).value] in rs
    ensures p == ByResolution ==>
              forall j | 0 <= j < |rs| :: rs[j].resolution <= rs[SelectBest(p, rs).value].resolution
    ensures p == ByCloudCover ==>
              forall j | 0 <= j < |rs| :: rs[SelectBest(p, rs).value].cloudCover <= rs[j].cloudCover
    ensures p == ByDate && |rs| >= 2 ==>
              forall j | 0 <= j < |rs| ::
                && ExtractFirstDate(rs[j].time).Success?
                && !Later(ExtractFirstDate(rs[j].time).value, ExtractFirstDate(rs[SelectBest(p, rs).value].time).value)
  {
    var k := SelectBest(p, rs).value;
    if p == ByDate && |rs| >= 2 {
      forall j | 0 <= j < |rs|
        ensures ExtractFirstDate(rs[j].time).Success?
        ensures !Later(ExtractFirstDate(rs[j].time).value, ExtractFirstDate(rs[k].time).value)
      {
        assert !(Prefers(p, rs[j], rs[k]).Success? && Prefers(p, rs[j], rs[k]).value);
        SortKeyOrder(ExtractFirstDate(rs[j].time).value, ExtractFirstDate(rs[k].time).value);
      }
    }
  }

  // ---------------------------------------------------------------------------
  // The sort as written

  /** A bool used where Python 2 expects a `cmp` result. */
  function PyInt(b: bool): int {
    if b then 1 else 0
  }

  /** The picker called as a `cmp` function. */
  function AsCmp(p: Picker): (ImageRecord, ImageRecord) -> Result<int, ParseError> {
    (a: ImageRecord, b: ImageRecord) =>
      match Prefers(p, a, b)
      case Success(v) => Success(PyInt(v))
      case Failure(e) => Failure(e)
  }

  /** The first run `count_run` finds: its length, and whether it is strictly
      descending. */
  datatype Run = Run(length: nat, descending: bool)

  /** Extends a run from position `k`: `cmp(rs[k], rs[k - 1]) < 0` continues a
      descending run and ends an ascending one. An exception from `cmp`
      propagates. */
  function RunFrom(cmp: (ImageRecord, ImageRecord) -> Result<int, ParseError>,
                   rs: seq<ImageRecord>, k: nat, descending: bool): (r: Result<nat, ParseError>)
    requires 2 <= k <= |rs|
    ensures r.Success? ==> k <= r.value <= |rs|
    decreases |rs| - k
  {
    if k == |rs| then Success(k)
    else
      var c :- cmp(rs[k], rs[k - 1]);
      if (c < 0) == descending then RunFrom(cmp, rs, k + 1, descending) else Success(k)
  }

  /** `count_run` on a list of at least two elements. */
  function CountRun(cmp: (ImageRecord, ImageRecord) -> Result<int, ParseError>,
                    rs: seq<ImageRecord>): (r: Result<Run, ParseError>)
    requires |rs| >= 2
    ensures r.Success? ==> 2 <= r.value.length <= |rs|
  {
    var c :- cmp(rs[1], rs[0]);
    var n :- RunFrom(cmp, rs, 2, c < 0);
    Success(Run(n, c < 0))
  }

  /** What `list.sort(cmp)` leaves in the list. */
  datatype SortOutcome =
    | Ordered(records: seq<ImageRecord>)
    | Raised(error: ParseError)
      /** The first run is shorter than the list, and the insertion sort and
          merging that follow are not modelled. */
    | MergeNeeded

  function Reverse(rs: seq<ImageRecord>): (r: seq<ImageRecord>)
    ensures |r| == |rs| && forall j | 0 <= j < |rs| :: r[j] == rs[|rs| - 1 - j]
  {
    if |rs| == 0 then [] else Reverse(rs[1..]) + [rs[0]]
  }

  /** Reversing keeps every record, as often as it occurs. */
  lemma {:induction false} ReversePermutes(rs: seq<ImageRecord>)
    ensures multiset(Reverse(rs)) == multiset(rs)
    decreases |rs|
  {
    if |rs| > 0 {
      ReversePermutes(rs[1..]);
      assert rs == [rs[0]] + rs[1..];
    }
  }

  /** Python 2's `list.sort(cmp)` as far as its first run: a list shorter than
      two is left alone; a run covering the list is kept, or reversed if it
      is descending. */
  function SortAsWritten(cmp: (ImageRecord, ImageRecord) -> Result<int, ParseError>,
                         rs: seq<ImageRecord>): (r: SortOutcome)
    ensures r.Ordered? ==> multiset(r.records) == multiset(rs)
    ensures r.Raised? ==> |rs| >= 2
  {
    ReversePermutes(rs);
    if |rs| < 2 then Ordered(rs)
    else
      match CountRun(cmp, rs)
      case Failure(e) => Raised(e)
      case Success(run) =>
        if run.length < |rs| then MergeNeeded
        else if run.descending then Ordered(Reverse(rs))
        else Ordered(rs)
  }

  /** A `cmp` that never answers with a negative number. */
  predicate NeverNegative(cmp: (ImageRecord, ImageRecord) -> Result<int, ParseError>, rs: seq<ImageRecord>) {
    forall j | 1 <= j < |rs| :: cmp(rs[j], rs[j - 1]).Success? ==> cmp(rs[j], rs[j - 1]).value >= 0
  }

  lemma {:induction false} AscendingRunToEnd(cmp: (ImageRecord, ImageRecord) -> Result<int, ParseError>,
                                             rs: seq<ImageRecord>, k: nat)
    requires 2 <= k <= |rs| && NeverNegative(cmp, rs)
    ensures RunFrom(cmp, rs, k, false).Success? ==> RunFrom(cmp, rs, k, false).value == |rs|
    ensures RunFrom(cmp, rs, k, false).Failure? <==>
              exists j | k <= j < |rs| :: cmp(rs[j], rs[j - 1]).Failure?
    decreases |rs| - k
  {
    if k < |rs| {
      AscendingRunToEnd(cmp, rs, k + 1);
    }
  }

  /** With a `cmp` that is never negative the sort leaves the list as it is,
      unless `cmp` raises on one of the neighbouring pairs it is asked about. */
  lemma SortKeepsOrder(cmp: (ImageRecord, ImageRecord) -> Result<int, ParseError>, rs: seq<ImageRecord>)
    requires NeverNegative(cmp, rs)
    ensures SortAsWritten(cmp, rs).Ordered? || SortAsWritten(cmp, rs).Raised?
    ensures SortAsWritten(cmp, rs).Ordered? ==> SortAsWritten(cmp, rs).records == rs
    ensures SortAsWritten(cmp, rs).Raised? <==>
              exists j | 1 <= j < |rs| :: cmp(rs[j], rs[j - 1]).Failure?
  {
    if |rs| >= 2 {
      AscendingRunToEnd(cmp, rs, 2);
    }
  }

  /** A picker used as a `cmp` function answers 0 or 1. */
  lemma PickersNeverNegative(p: Picker, rs: seq<ImageRecord>)
    ensures NeverNegative(AsCmp(p), rs)
  {
  }

  /** The record the program downloads: the first of the list as the sort
      leaves it. */
  function ChosenAsWritten(p: Picker, rs: seq<ImageRecord>): (r: Result<ImageRecord, ParseError>)
    requires |rs| > 0
    ensures r.Success? ==> r.value == rs[0]
    ensures r.Failure? <==> DatesUnreadable(p, rs)
  {
    PickersNeverNegative(p, rs);
    SortKeepsOrder(AsCmp(p), rs);
    DateCmpRaises(p, rs);
    match SortAsWritten(AsCmp(p), rs)
    case Ordered(sorted) => Success(sorted[0])
    case Raised(e) => Failure(e)
  }

  /** Comparing neighbours raises exactly when some record's start is
      unreadable and the date picker compares at least two records. */
  lemma DateCmpRaises(p: Picker, rs: seq<ImageRecord>)
    ensures (exists j | 1 <= j < |rs| :: AsCmp(p)(rs[j], rs[j - 1]).Failure?) <==> DatesUnreadable(p, rs)
  {
    if p == ByDate && |rs| >= 2 {
      if j :| 0 <= j < |rs| && ExtractFirstDate(rs[j].time).Failure? {
        var i := if j == 0 then 1 else j;
        assert AsCmp(p)(rs[i], rs[i - 1]).Failure?;
      }
    }
  }

  /** The two selections agree on which catalogs make the program fail, but
      not on the record they pick: with these two records the cloud-cover
      picker takes the cloudier one. */
  lemma CloudCoverCounterexample()
    ensures var rs := [ImageRecord("", 5.0, 20.0, 0, "first"), ImageRecord("", 10.0, 5.0, 0, "second")];
            && ChosenAsWritten(ByCloudCover, rs) == Success(rs[0])
            && SelectBest(ByCloudCover, rs) == Success(1)
  {
    var rs := [ImageRecord("", 5.0, 20.0, 0, "first"), ImageRecord("", 10.0, 5.0, 0, "second")];
    assert Scores(ByCloudCover, rs) == [-20.0, -5.0];
  }

  /** The sort's first comparison is `cmp(rs[1], rs[0])`, and the date picker
      parses its first argument first: when the second record's start is
      unreadable, its error is the one raised, whatever the first record holds. */
  lemma FirstComparisonRaises(rs: seq<ImageRecord>)
    requires |rs| >= 2 && ExtractFirstDate(rs[1].time).Failure?
    ensures ChosenAsWritten(ByDate, rs) == Failure(ExtractFirstDate(rs[1].time).error)
  {
  }

  /** Both selections fail on the same catalogs. */
  lemma SameFailures(p: Picker, rs: seq<ImageRecord>)
    requires |rs| > 0
    ensures ChosenAsWritten(p, rs).Failure? <==> SelectBest(p, rs).Failure?
  {
  }
}

=== FILE: timestamp.dfy ===
/** The start timestamp of a catalog record: `extract_first_date` reads the
    characters at offsets 1..32 of the record's `time` string with
    `datetime.strptime` and the layout `%Y-%m-%dT%H:%M:%S.%f+00:00`.

    `strptime` turns the layout into a regular expression, matched without
    regard to case, in which each directive accepts a small set of digit
    strings:
      %Y  exactly four digits
      %m  1 or 2 digits, 1..12           %d  1 or 2 digits, 1..31, or a space and 1..9
      %H  1 or 2 digits, 0..23           %M  1 or 2 digits, 0..59
      %S  1 or 2 digits, 0..61           %f  1 to 6 digits, read as a fraction
    Every other character of the layout must appear literally. The whole text
    must be consumed ("unconverted data remains" otherwise), and the captured
    numbers must then form a real `datetime` (year at least 1, a day that
    exists in its month, a second below 60). */
module Timestamp {
  import opened Wrappers

  /** A naive `datetime`: the `+00:00` of the layout is literal text, not an offset. */
  datatype DateTime = DateTime(year: int, month: int, day: int,
                               hour: int, minute: int, second: int, microsecond: int)

  /** Why `strptime` raised `ValueError`. */
  datatype ParseError =
    | FormatMismatch   // the text does not match the layout
    | UnconvertedData  // the layout matched a proper prefix of the text
    | OutOfRange       // the captured fields are not a calendar datetime

  // ---------------------------------------------------------------------------
  // Calendar

  predicate IsLeapYear(y: int) {
    y % 4 == 0 && (y % 100 != 0 || y % 400 == 0)
  }

  function DaysInMonth(y: int, m: int): (n: int)
    requires 1 <= m <= 12
    ensures 28 <= n <= 31
    ensures n == 29 <==> m == 2 && IsLeapYear(y)
  {
    if m == 2 then (if IsLeapYear(y) then 29 else 28)
    else if m == 4 || m == 6 || m == 9 || m == 11 then 30
    else 31
  }

  /** The values Python's `datetime` constructor accepts. */
  predicate Valid(t: DateTime) {
    && 1 <= t.year <= 9999
    && 1 <= t.month <= 12
    && 1 <= t.day <= DaysInMonth(t.year, t.month)
    && 0 <= t.hour < 24
    && 0 <= t.minute < 60
    && 0 <= t.second < 60
    && 0 <= t.microsecond < 1000000
  }

  // ---------------------------------------------------------------------------
  // Digits

  predicate IsDigit(c: char) {
    '0' <= c <= '9'
  }

  predicate AllDigits(s: string) {
    forall i | 0 <= i < |s| :: IsDigit(s[i])
  }

  function DigitValue(c: char): nat
    requires IsDigit(c)
  {
    c as int - '0' as int
  }

  function DigitChar(d: nat): (c: char)
    requires d < 10
    ensures IsDigit(c) && DigitValue(c) == d
  {
    ('0' as int + d) as char
  }

  function Pow10(n: nat): (p: nat)
    ensures p >= 1
  {
    if n == 0 then 1 else 10 * Pow10(n - 1)
  }

  /** The number a string of decimal digits denotes. */
  function Decimal(s: string): nat
    requires AllDigits(s)
  {
    if |s| == 0 then 0 else 10 * Decimal(s[..|s| - 1]) + DigitValue(s[|s| - 1])
  }

  /** ASCII lower-casing: the layout's regular expression ignores case. */
  function Fold(c: char): char {
    if 'A' <= c <= 'Z' then (c as int + 32) as char else c
  }

  /** The end of the longest run of digits that starts at `i`. */
  function DigitRunEnd(s: string, i: nat): (j: nat)
    requires i <= |s|
    ensures i <= j <= |s|
    ensures forall k | i <= k < j :: IsDigit(s[k])
    ensures j == |s| || !IsDigit(s[j])
    decreases |s| - i
  {
    if i < |s| && IsDigit(s[i]) then DigitRunEnd(s, i + 1) else i
  }

  lemma {:induction false} RunEndAt(s: string, i: nat, j: nat)
    requires i <= j <= |s|
    requires forall k | i <= k < j :: IsDigit(s[k])
    requires j == |s| || !IsDigit(s[j])
    ensures DigitRunEnd(s, i) == j
    decreases j - i
  {
    if i < j {
      RunEndAt(s, i + 1, j);
    }
  }

  // ---------------------------------------------------------------------------
  // Matching the layout

  /** A captured field: its value and the index just past it. */
  datatype Scan = Scan(value: nat, next: nat)

  /** One numeric directive at `i`: between `minWidth` and `maxWidth` digits
      whose value lies in `lo..hi`. The layout always follows a directive with
      a non-digit, so a match must take the whole digit run. */
  function Number(s: string, i: nat, minWidth: nat, maxWidth: nat, lo: nat, hi: nat)
    : (r: Result<Scan, ParseError>)
    requires i <= |s|
    ensures r.Success? ==> i + minWidth <= r.value.next <= i + maxWidth && r.value.next <= |s|
    ensures r.Success? ==> AllDigits(s[i..r.value.next])
    ensures r.Success? ==> r.value.value == Decimal(s[i..r.value.next]) && lo <= r.value.value <= hi
    ensures r.Success? ==> r.value.next == |s| || !IsDigit(s[r.value.next])
  {
    var j := DigitRunEnd(s, i);
    assert AllDigits(s[i..j]);
    var v := Decimal(s[i..j]);
    if minWidth <= j - i <= maxWidth && lo <= v <= hi then Success(Scan(v, j))
    else Failure(FormatMismatch)
  }

  /** The `%d` directive: a number 1..31 of one or two digits, or a space
      followed by a digit 1..9. */
  function Day(s: string, i: nat): (r: Result<Scan, ParseError>)
    requires i <= |s|
    ensures r.Success? ==> i + 1 <= r.value.next <= i + 2 && r.value.next <= |s|
    ensures r.Success? ==> 1 <= r.value.value <= 31
    ensures r.Success? && s[i] == ' ' ==>
              r.value.next == i + 2 && IsDigit(s[i + 1]) && r.value.value == DigitValue(s[i + 1])
    ensures r.Success? && s[i] != ' ' ==>
              AllDigits(s[i..r.value.next]) && r.value.value == Decimal(s[i..r.value.next])
              && (r.value.next == |s| || !IsDigit(s[r.value.next]))
  {
    if i < |s| && s[i] == ' ' then
      if i + 1 < |s| && '1' <= s[i + 1] <= '9' then Success(Scan(DigitValue(s[i + 1]), i + 2))
      else Failure(FormatMismatch)
    else Number(s, i, 1, 2, 1, 31)
  }

  /** Literal layout text `t` at `i`, compared without regard to case. */
  function Text(s: string, i: nat, t: string): (r: Result<nat, ParseError>)
    requires i <= |s|
    ensures r.Success? <==> FoldsAt(s, i, t)
    ensures r.Success? ==> r.value == i + |t| <= |s|
    decreases |t|
  {
    if |t| == 0 then Success(i)
    else if i < |s| && Fold(s[i]) == Fold(t[0]) then Text(s, i + 1, t[1..])
    else Failure(FormatMismatch)
  }

  /** `Text` matches exactly where every character of the literal equals,
      up to case, the one at the same offset from `i`. */
  lemma {:induction false} TextCharwise(s: string, i: nat, t: string)
    requires i <= |s|
    ensures Text(s, i, t).Success? <==>
              i + |t| <= |s| && forall j | 0 <= j < |t| :: Fold(s[i + j]) == Fold(t[j])
    decreases |t|
  {
    if |t| > 0 && i < |s| && Fold(s[i]) == Fold(t[0]) {
      TextCharwise(s, i + 1, t[1..]);
      if i + |t| <= |s| && forall j | 0 <= j < |t| :: Fold(s[i + j]) == Fold(t[j]) {
        forall j | 0 <= j < |t[1..]| ensures Fold(s[i + 1 + j]) == Fold(t[1..][j]) {
          assert Fold(s[i + (j + 1)]) == Fold(t[j + 1]);
        }
      }
      if Text(s, i + 1, t[1..]).Success? {
        forall j | 0 <= j < |t| ensures Fold(s[i + j]) == Fold(t[j]) {
          if j > 0 {
            assert Fold(s[i + 1 + (j - 1)]) == Fold(t[1..][j - 1]);
          }
        }
      }
    } else if |t| > 0 && i < |s| {
      assert !(Fold(s[i + 0]) == Fold(t[0]));
    }
  }

  /** `t` appears at `i` in `s`, up to case. */
  predicate FoldsAt(s: string, i: nat, t: string)
    decreases |t|
  {
    |t| == 0 || (i < |s| && Fold(s[i]) == Fold(t[0]) && FoldsAt(s, i + 1, t[1..]))
  }

  /** The directives of the layout. */
  datatype Directive = Year | Month | DayOfMonth | Hour | Minute | Second | Fraction

  /** A directive and the literal text that follows it in the layout. */
  datatype Step = Step(directive: Directive, follow: string)

  /** `%Y-%m-%dT%H:%M:%S.%f+00:00`, directive by directive. */
  const Layout: seq<Step> := [Step(Year, "-"), Step(Month, "-"), Step(DayOfMonth, "T"),
                              Step(Hour, ":"), Step(Minute, ":"), Step(Second, "."),
                              Step(Fraction, "+00:00")]

  function MinWidth(d: Directive): nat {
    if d == Year then 4 else 1
  }

  function MaxWidth(d: Directive): nat {
    match d
    case Year => 4
    case Fraction => 6
    case _ => 2
  }

  function Lowest(d: Directive): nat {
    if d == Month || d == DayOfMonth then 1 else 0
  }

  function Highest(d: Directive): nat {
    match d
    case Year => 9999
    case Month => 12
    case DayOfMonth => 31
    case Hour => 23
    case Minute => 59
    case Second => 61
    case Fraction => 999999
  }

  /** One directive at `i`. The `%f` digits are a fraction of a second:
      "5" is 500000 microseconds. */
  function ScanDirective(s: string, i: nat, d: Directive): (r: Result<Scan, ParseError>)
    requires i <= |s|
    ensures r.Success? ==> i + MinWidth(d) <= r.value.next <= i + MaxWidth(d) && r.value.next <= |s|
  {
    if d == DayOfMonth then Day(s, i)
    else
      var f :- Number(s, i, MinWidth(d), MaxWidth(d), Lowest(d), Highest(d));
      if d == Fraction then Success(Scan(f.value * Pow10(6 - (f.next - i)), f.next))
      else Success(f)
  }

  /** The captured field values and the index just past the match. */
  datatype Captured = Captured(values: seq<nat>, next: nat)

  /** The number of characters `steps` occupy when every field is at full width. */
  function Span(steps: seq<Step>): nat {
    if |steps| == 0 then 0 else MaxWidth(steps[0].directive) + |steps[0].follow| + Span(steps[1..])
  }

  /** Matches `steps` from index `i`, one directive and its literal at a time. */
  function MatchSteps(s: string, i: nat, steps: seq<Step>): (r: Result<Captured, ParseError>)
    requires i <= |s|
    ensures r.Success? ==> |r.value.values| == |steps| && i <= r.value.next <= i + Span(steps)
    ensures r.Success? ==> r.value.next <= |s|
    ensures r.Success? && r.value.next == i + Span(steps) ==>
              FullWidthAt(s, i, steps) && r.value.values == FullValues(s, i, steps)
    decreases |steps|
  {
    if |steps| == 0 then Success(Captured([], i))
    else
      var field :- ScanDirective(s, i, steps[0].directive);
      var j :- Text(s, field.next, steps[0].follow);
      var rest :- MatchSteps(s, j, steps[1..]);
      FullWidthStep(s, i, steps, field, j, rest);
      Success(Captured([field.value] + rest.values, rest.next))
  }

  /** The regular-expression stage of `strptime`: the raw captured fields, not
      yet checked against the calendar. */
  function MatchLayout(s: string): (r: Result<DateTime, ParseError>)
    ensures r.Success? ==> |s| <= 32
  {
    var m :- MatchSteps(s, 0, Layout);
    if m.next < |s| then Failure(UnconvertedData) else Success(ToDateTime(m.values))
  }

  function ToDateTime(v: seq<nat>): DateTime
    requires |v| == 7
  {
    DateTime(v[0], v[1], v[2], v[3], v[4], v[5], v[6])
  }

  /** `datetime.strptime(text, "%Y-%m-%dT%H:%M:%S.%f+00:00")`. */
  function ParseStart(s: string): (r: Result<DateTime, ParseError>)
    ensures r.Success? ==> Valid(r.value) && |s| <= 32
  {
    var raw :- MatchLayout(s);
    if Valid(raw) then Success(raw) else Failure(OutOfRange)
  }

  /** Python's `time[1:33]`: slicing clamps to the string. */
  function StartField(time: string): (f: string)
    ensures |time| >= 33 ==> f == time[1..33]
    ensures |f| == if |time| <= 1 then 0 else if |time| >= 33 then 32 else |time| - 1
    ensures forall k | 0 <= k < |f| :: f[k] == time[k + 1]
  {
    if |time| <= 1 then [] else if |time| < 33 then time[1..] else time[1..33]
  }

  /** `extract_first_date`: the start timestamp of a record's `time` string. */
  function ExtractFirstDate(time: string): (r: Result<DateTime, ParseError>)
    ensures r.Success? ==> Valid(r.value)
  {
    ParseStart(StartField(time))
  }

  // ---------------------------------------------------------------------------
  // Full-width fields

  /** Each literal of the layout begins with a character that is neither a
      digit nor a space, even after case folding, so it ends the field before it. */
  predicate Delimited(steps: seq<Step>) {
    |steps| > 0 ==>
      && |steps[0].follow| > 0
      && !IsDigit(Fold(steps[0].follow[0])) && Fold(steps[0].follow[0]) != ' '
      && Delimited(steps[1..])
  }

  /** Directive `d` at `i` at full width: all digits, except that the day may
      start with a space. */
  predicate FullField(s: string, i: nat, d: Directive)
    requires i + MaxWidth(d) <= |s|
  {
    if d == DayOfMonth then (IsDigit(s[i]) || s[i] == ' ') && IsDigit(s[i + 1])
    else AllDigits(s[i..i + MaxWidth(d)])
  }

  /** The number a full-width field denotes. */
  function FullValue(s: string, i: nat, d: Directive): nat
    requires i + MaxWidth(d) <= |s| && FullField(s, i, d)
  {
    if d == DayOfMonth && s[i] == ' ' then DigitValue(s[i + 1]) else Decimal(s[i..i + MaxWidth(d)])
  }

  /** Every field of `steps` from `i` at full width, each followed by its literal. */
  predicate FullWidthAt(s: string, i: nat, steps: seq<Step>)
    decreases |steps|
  {
    && i + Span(steps) <= |s|
    && (|steps| > 0 ==>
          var d := steps[0].directive;
          var j := i + MaxWidth(d);
          && FullField(s, i, d)
          && FoldsAt(s, j, steps[0].follow)
          && FullWidthAt(s, j + |steps[0].follow|, steps[1..]))
  }

  /** The field values read at full width. */
  function FullValues(s: string, i: nat, steps: seq<Step>): (v: seq<nat>)
    requires FullWidthAt(s, i, steps)
    ensures |v| == |steps|
    decreases |steps|
  {
    if |steps| == 0 then []
    else
      var d := steps[0].directive;
      [FullValue(s, i, d)] + FullValues(s, i + MaxWidth(d) + |steps[0].follow|, steps[1..])
  }

  /** Each value within the range its directive accepts. */
  predicate InRanges(v: seq<nat>, steps: seq<Step>)
    requires |v| == |steps|
  {
    |steps| > 0 ==>
      Lowest(steps[0].directive) <= v[0] <= Highest(steps[0].directive) && InRanges(v[1..], steps[1..])
  }

  lemma DirectiveAtFullWidth(s: string, i: nat, d: Directive)
    requires i <= |s| && ScanDirective(s, i, d).Success?
    requires ScanDirective(s, i, d).value.next == i + MaxWidth(d)
    ensures FullField(s, i, d) && ScanDirective(s, i, d).value.value == FullValue(s, i, d)
    ensures Lowest(d) <= FullValue(s, i, d) <= Highest(d)
  {
    if d == DayOfMonth && s[i] != ' ' {
      assert s[i] == s[i..i + 2][0] && s[i + 1] == s[i..i + 2][1];
    }
  }

  lemma FullWidthDirective(s: string, i: nat, d: Directive)
    requires i + MaxWidth(d) < |s| && FullField(s, i, d)
    requires !IsDigit(s[i + MaxWidth(d)]) && s[i + MaxWidth(d)] != ' '
    requires Lowest(d) <= FullValue(s, i, d) <= Highest(d)
    ensures ScanDirective(s, i, d) == Success(Scan(FullValue(s, i, d), i + MaxWidth(d)))
  {
    var w := MaxWidth(d);
    if d == DayOfMonth && s[i] == ' ' {
    } else {
      if d == DayOfMonth {
        assert AllDigits(s[i..i + 2]);
      }
      forall k | i <= k < i + w ensures IsDigit(s[k]) {
        assert s[k] == s[i..i + w][k - i];
      }
      RunEndAt(s, i, i + w);
    }
  }

  lemma FoldNotDigit(c: char, lit: char)
    requires Fold(c) == Fold(lit) && !IsDigit(Fold(lit)) && Fold(lit) != ' '
    ensures !IsDigit(c) && c != ' '
  {
  }

  /** One step of a match that spans the full width of `steps`: the first
      field was read at full width, and so was the rest. */
  lemma FullWidthStep(s: string, i: nat, steps: seq<Step>, field: Scan, j: nat, rest: Captured)
    requires |steps| > 0 && i <= |s|
    requires ScanDirective(s, i, steps[0].directive) == Success(field)
    requires Text(s, field.next, steps[0].follow) == Success(j)
    requires rest.next <= j + Span(steps[1..])
    requires rest.next == j + Span(steps[1..]) ==>
               FullWidthAt(s, j, steps[1..]) && rest.values == FullValues(s, j, steps[1..])
    ensures rest.next == i + Span(steps) ==>
              FullWidthAt(s, i, steps) && [field.value] + rest.values == FullValues(s, i, steps)
  {
    var d := steps[0].directive;
    if rest.next == i + Span(steps) {
      assert field.next == i + MaxWidth(d);
      DirectiveAtFullWidth(s, i, d);
    }
  }

  /** Conversely, full-width fields within their ranges match. */
  lemma {:induction false} FullWidthMatches(s: string, i: nat, steps: seq<Step>)
    requires Delimited(steps) && FullWidthAt(s, i, steps)
    requires InRanges(FullValues(s, i, steps), steps)
    ensures MatchSteps(s, i, steps).Success?
    ensures MatchSteps(s, i, steps).value.next == i + Span(steps)
    decreases |steps|
  {
    if |steps| > 0 {
      var next := i + MaxWidth(steps[0].directive) + |steps[0].follow|;
      FirstStepMatches(s, i, steps);
      FullWidthRest(s, i, steps);
      FullWidthMatches(s, next, steps[1..]);
      MatchStepsCons(s, i, steps, FullValue(s, i, steps[0].directive), i + MaxWidth(steps[0].directive), next);
    }
  }

  /** The fields after the first are at full width and within their ranges too. */
  lemma FullWidthRest(s: string, i: nat, steps: seq<Step>)
    requires |steps| > 0 && FullWidthAt(s, i, steps) && InRanges(FullValues(s, i, steps), steps)
    ensures var next := i + MaxWidth(steps[0].directive) + |steps[0].follow|;
            && FullWidthAt(s, next, steps[1..])
            && InRanges(FullValues(s, next, steps[1..]), steps[1..])
  {
    var next := i + MaxWidth(steps[0].directive) + |steps[0].follow|;
    assert FullValues(s, i, steps)[1..] == FullValues(s, next, steps[1..]);
  }

  lemma FirstStepMatches(s: string, i: nat, steps: seq<Step>)
    requires |steps| > 0 && Delimited(steps) && FullWidthAt(s, i, steps)
    requires InRanges(FullValues(s, i, steps), steps)
    ensures var d := steps[0].directive;
            && ScanDirective(s, i, d) == Success(Scan(FullValue(s, i, d), i + MaxWidth(d)))
            && Text(s, i + MaxWidth(d), steps[0].follow) == Success(i + MaxWidth(d) + |steps[0].follow|)
  {
    var d := steps[0].directive;
    var j := i + MaxWidth(d);
    var follow := steps[0].follow;
    FoldNotDigit(s[j], follow[0]);
    FullWidthDirective(s, i, d);
  }

  /** A match of `steps` is the first directive, its literal and a match of the rest. */
  lemma MatchStepsCons(s: string, i: nat, steps: seq<Step>, v: nat, fieldEnd: nat, next: nat)
    requires i <= |s| && |steps| > 0
    requires ScanDirective(s, i, steps[0].directive) == Success(Scan(v, fieldEnd))
    requires Text(s, fieldEnd, steps[0].follow) == Success(next)
    requires MatchSteps(s, next, steps[1..]).Success?
    ensures MatchSteps(s, i, steps).Success?
    ensures MatchSteps(s, i, steps).value.values == [v] + MatchSteps(s, next, steps[1..]).value.values
    ensures MatchSteps(s, i, steps).value.next == MatchSteps(s, next, steps[1..]).value.next
  {
    var rest := MatchSteps(s, next, steps[1..]).value;
    assert MatchSteps(s, i, steps) == Success(Captured([v] + rest.values, rest.next));
  }


  // ---------------------------------------------------------------------------
  // The 32-character slice

  /** The text has the layout at fixed positions, every field at full width:
        YYYY-MM-DDTHH:MM:SS.ffffff+00:00
      (the day may be padded with a space and the letters may be lower case,
      as `strptime` accepts). */
  predicate FixedLayout(s: string) {
    |s| == 32 && FullWidthAt(s, 0, Layout)
  }

  /** The numbers the digits at the fixed positions denote. */
  function FieldsAt(s: string): DateTime
    requires FixedLayout(s)
  {
    ToDateTime(FullValues(s, 0, Layout))
  }

  lemma ValidInRanges(v: seq<nat>)
    requires |v| == 7 && Valid(ToDateTime(v))
    ensures InRanges(v, Layout)
  {
    BoundsInRanges(v);
  }

  lemma BoundsInRanges(v: seq<nat>)
    requires |v| == 7 && 1 <= v[0] <= 9999 && 1 <= v[1] <= 12 && 1 <= v[2] <= 31
    requires v[3] <= 23 && v[4] <= 59 && v[5] <= 61 && v[6] <= 999999
    ensures InRanges(v, Layout)
  {
    var l := Layout;
    forall k | 0 <= k < 7
      ensures Lowest(l[k].directive) <= v[k] <= Highest(l[k].directive)
    {
      if k == 0 { assert l[0].directive == Year; }
      else if k == 1 { assert l[1].directive == Month; }
      else if k == 2 { assert l[2].directive == DayOfMonth; }
      else if k == 3 { assert l[3].directive == Hour; }
      else if k == 4 { assert l[4].directive == Minute; }
      else if k == 5 { assert l[5].directive == Second; }
      else { assert l[6].directive == Fraction; }
    }
    EachInRange(v, l);
  }

  lemma {:induction false} EachInRange(v: seq<nat>, steps: seq<Step>)
    requires |v| == |steps|
    requires forall k | 0 <= k < |v| :: Lowest(steps[k].directive) <= v[k] <= Highest(steps[k].directive)
    ensures InRanges(v, steps)
    decreases |v|
  {
    if |v| > 0 {
      EachInRange(v[1..], steps[1..]);
    }
  }

  lemma LayoutDelimited()
    ensures Delimited(Layout) && Span(Layout) == 32
  {
    var l := Layout;
    assert Delimited(l[7..]);
    assert Delimited(l[6..]) by { assert l[6..][1..] == l[7..]; }
    assert Delimited(l[5..]) by { assert l[5..][1..] == l[6..]; }
    assert Delimited(l[4..]) by { assert l[4..][1..] == l[5..]; }
    assert Delimited(l[3..]) by { assert l[3..][1..] == l[4..]; }
    assert Delimited(l[2..]) by { assert l[2..][1..] == l[3..]; }
    assert Delimited(l[1..]) by { assert l[1..][1..] == l[2..]; }
    assert Delimited(l) by { assert l[1..] == l[1..]; }
  }

  lemma MatchedFixed(s: string)
    requires |s| == 32 && MatchLayout(s).Success?
    ensures FixedLayout(s) && MatchLayout(s).value == FieldsAt(s)
  {
    LayoutSpan();
    assert MatchSteps(s, 0, Layout).value.next == 32;
  }

  lemma LayoutSpan()
    ensures Span(Layout) == 32
  {
    LayoutDelimited();
  }

  lemma FixedMatched(s: string)
    requires FixedLayout(s) && Valid(FieldsAt(s))
    ensures MatchLayout(s).Success? && MatchLayout(s).value == FieldsAt(s)
  {
    LayoutDelimited();
    var v := FullValues(s, 0, Layout);
    ValidInRanges(v);
    FullWidthMatches(s, 0, Layout);
    MatchedWhole(s);
  }

  /** A match of the whole text is the result of the matching stage. */
  lemma MatchedWhole(s: string)
    requires MatchSteps(s, 0, Layout).Success? && MatchSteps(s, 0, Layout).value.next == |s|
    ensures MatchLayout(s).Success? && MatchLayout(s).value == ToDateTime(MatchSteps(s, 0, Layout).value.values)
  {
  }

  /** On a 32-character text the parse succeeds exactly when the text has the
      fixed layout and its fields form a valid datetime, and it then yields
      the numbers at the fixed positions: no field can be narrower than its
      slot when all of them must fill 32 characters. */
  lemma FixedWidthParse(s: string)
    requires |s| == 32
    ensures ParseStart(s).Success? <==> FixedLayout(s) && Valid(FieldsAt(s))
    ensures ParseStart(s).Success? ==> ParseStart(s).value == FieldsAt(s)
  {
    if MatchLayout(s).Success? {
      MatchedFixed(s);
    }
    if FixedLayout(s) && Valid(FieldsAt(s)) {
      FixedMatched(s);
    }
  }

  // ---------------------------------------------------------------------------
  // Writing a datetime in the layout

  /** The low `w` decimal digits of `v`, padded with zeros on the left. */
  function Digits(v: nat, w: nat): (s: string)
    ensures |s| == w && AllDigits(s)
  {
    if w == 0 then [] else Digits(v / 10, w - 1) + [DigitChar(v % 10)]
  }

  lemma {:induction false} DecimalOfDigits(v: nat, w: nat)
    requires v < Pow10(w)
    ensures Decimal(Digits(v, w)) == v
  {
    if w > 0 {
      SplitLastDigit(v, Pow10(w - 1));
      DecimalOfDigits(v / 10, w - 1);
      DecimalAppend(Digits(v / 10, w - 1), v % 10);
    }
  }

  lemma DecimalAppend(init: string, d: nat)
    requires AllDigits(init) && d < 10
    ensures AllDigits(init + [DigitChar(d)])
    ensures Decimal(init + [DigitChar(d)]) == 10 * Decimal(init) + d
  {
    var s := init + [DigitChar(d)];
    assert s[..|s| - 1] == init;
  }

  lemma SplitLastDigit(v: nat, p: nat)
    requires v < 10 * p
    ensures v / 10 < p && 10 * (v / 10) + v % 10 == v
  {
  }

  lemma {:induction false} DigitsOfDecimal(s: string)
    requires AllDigits(s)
    ensures Digits(Decimal(s), |s|) == s
  {
    if |s| > 0 {
      var init, last := s[..|s| - 1], s[|s| - 1];
      assert AllDigits(init);
      DigitsOfDecimal(init);
      ShiftDigit(Decimal(init), DigitValue(last));
      assert DigitChar(DigitValue(last)) == last;
      assert s == init + [last];
    }
  }

  lemma ShiftDigit(q: nat, d: nat)
    requires d < 10
    ensures (10 * q + d) / 10 == q && (10 * q + d) % 10 == d
  {
  }

  /** The values of `steps` written at full width, each followed by its literal. */
  function FormatSteps(v: seq<nat>, steps: seq<Step>): (s: string)
    requires |v| == |steps|
    ensures |s| == Span(steps)
  {
    if |steps| == 0 then []
    else Digits(v[0], MaxWidth(steps[0].directive)) + steps[0].follow + FormatSteps(v[1..], steps[1..])
  }

  function Fields(t: DateTime): seq<nat>
    requires Valid(t)
  {
    [t.year, t.month, t.day, t.hour, t.minute, t.second, t.microsecond]
  }

  /** The canonical zero-padded rendering of a datetime in the layout
      `%Y-%m-%dT%H:%M:%S.%f+00:00`: four-digit year, two-digit month to
      second, six-digit fraction. */
  function Format(t: DateTime): (s: string)
    requires Valid(t)
    ensures |s| == 32
  {
    LayoutDelimited();
    FormatSteps(Fields(t), Layout)
  }

  lemma HighestFits(d: Directive)
    ensures Highest(d) < Pow10(MaxWidth(d))
  {
    match d
    case Year => assert Pow10(4) == 10000;
    case Fraction => assert Pow10(6) == 1000000;
    case _ => assert Pow10(2) == 100;
  }

  /** `t` appears at `i` in `s`, character for character. */
  predicate TextAt(s: string, i: nat, t: string) {
    i + |t| <= |s| && forall k | 0 <= k < |t| :: s[i + k] == t[k]
  }

  lemma {:induction false} FoldsAtSelf(s: string, i: nat, t: string)
    requires TextAt(s, i, t)
    ensures FoldsAt(s, i, t)
    decreases |t|
  {
    if |t| > 0 {
      assert s[i] == t[0];
      forall k | 0 <= k < |t[1..]| ensures s[i + 1 + k] == t[1..][k] {
        assert s[i + (k + 1)] == t[k + 1];
      }
      FoldsAtSelf(s, i + 1, t[1..]);
    }
  }

  /** A written field reads back at full width as the value written. */
  lemma FieldReadsBack(s: string, i: nat, v: nat, d: Directive)
    requires Lowest(d) <= v <= Highest(d)
    requires TextAt(s, i, Digits(v, MaxWidth(d)))
    ensures FullField(s, i, d) && FullValue(s, i, d) == v
  {
    var w := MaxWidth(d);
    HighestFits(d);
    DecimalOfDigits(v, w);
    assert s[i..i + w] == Digits(v, w);
    assert IsDigit(s[i]) by { assert s[i] == s[i..i + w][0]; }
    if d == DayOfMonth {
      assert IsDigit(s[i + 1]) by { assert s[i + 1] == s[i..i + w][1]; }
    }
  }

  /** Text written by `FormatSteps` has every field at full width, holding the
      values written. */
  lemma {:induction false} FormattedAt(s: string, i: nat, v: seq<nat>, steps: seq<Step>)
    requires |v| == |steps| && InRanges(v, steps)
    requires TextAt(s, i, FormatSteps(v, steps))
    ensures FullWidthAt(s, i, steps) && FullValues(s, i, steps) == v
    decreases |steps|
  {
    if |steps| > 0 {
      var d := steps[0].directive;
      var follow := steps[0].follow;
      var w := MaxWidth(d);
      var j := i + w + |follow|;
      FormattedParts(s, i, Digits(v[0], w), follow, FormatSteps(v[1..], steps[1..]));
      FieldReadsBack(s, i, v[0], d);
      FoldsAtSelf(s, i + w, follow);
      FormattedAt(s, j, v[1..], steps[1..]);
    }
  }

  lemma FormattedParts(s: string, i: nat, a: string, b: string, c: string)
    requires TextAt(s, i, a + b + c)
    ensures TextAt(s, i, a) && TextAt(s, i + |a|, b) && TextAt(s, i + |a| + |b|, c)
  {
    var t := a + b + c;
    forall k | 0 <= k < |a| ensures s[i + k] == a[k] { assert t[k] == a[k]; }
    forall k | 0 <= k < |b| ensures s[i + |a| + k] == b[k] { assert t[|a| + k] == b[k]; }
    forall k | 0 <= k < |c| ensures s[i + |a| + |b| + k] == c[k] { assert t[|a| + |b| + k] == c[k]; }
  }

  /** Writing a valid datetime and parsing the text back gives the datetime. */
  lemma FormatParses(t: DateTime)
    requires Valid(t)
    ensures ParseStart(Format(t)).Success? && ParseStart(Format(t)).value == t
  {
    var s := Format(t);
    var v := Fields(t);
    LayoutDelimited();
    ValidInRanges(v);
    FormattedAt(s, 0, v, Layout);
    FixedWidthParse(s);
  }

  // ---------------------------------------------------------------------------
  // Order

  /** `a > b` on Python datetimes: the fields compared lexicographically,
      most significant first. */
  predicate Later(a: DateTime, b: DateTime) {
    a.year > b.year || (a.year == b.year &&
    (a.month > b.month || (a.month == b.month &&
    (a.day > b.day || (a.day == b.day &&
    (a.hour > b.hour || (a.hour == b.hour &&
    (a.minute > b.minute || (a.minute == b.minute &&
    (a.second > b.second || (a.second == b.second &&
    a.microsecond > b.microsecond)))))))))))
  }

  /** `Later` is a strict total order. */
  lemma LaterStrictTotal(a: DateTime, b: DateTime, c: DateTime)
    ensures !Later(a, a)
    ensures Later(a, b) ==> !Later(b, a)
    ensures Later(a, b) && Later(b, c) ==> Later(a, c)
    ensures a != b ==> Later(a, b) || Later(b, a)
  {
  }

  /** A valid datetime as one number: the fields in mixed radix, so that
      comparing keys compares datetimes. */
  function SortKey(t: DateTime): int {
    (((((t.year * 100 + t.month) * 100 + t.day) * 100 + t.hour) * 100 + t.minute) * 100
      + t.second) * 1000000 + t.microsecond
  }

  lemma MixedRadix(x: int, y: int, dx: int, dy: int, radix: int)
    requires 0 <= dx < radix && 0 <= dy < radix
    ensures x * radix + dx > y * radix + dy <==> x > y || (x == y && dx > dy)
  {
    if x > y {
      MulAtLeast(x - y, radix);
      assert x * radix == y * radix + (x - y) * radix;
    } else if x < y {
      MulAtLeast(y - x, radix);
      assert y * radix == x * radix + (y - x) * radix;
    }
  }

  lemma {:induction false} MulAtLeast(k: int, r: int)
    requires k >= 1 && r >= 0
    ensures k * r >= r
    decreases k
  {
    if k > 1 {
      MulAtLeast(k - 1, r);
      assert k * r == (k - 1) * r + r;
    }
  }

  /** Comparing sort keys compares the datetimes. */
  lemma SortKeyOrder(a: DateTime, b: DateTime)
    requires Valid(a) && Valid(b)
    ensures Later(a, b) <==> SortKey(a) > SortKey(b)
  {
    var ka := a.year * 100 + a.month;
    var kb := b.year * 100 + b.month;
    MixedRadix(a.year, b.year, a.month, b.month, 100);
    MixedRadix(ka, kb, a.day, b.day, 100);
    ka, kb := ka * 100 + a.day, kb * 100 + b.day;
    MixedRadix(ka, kb, a.hour, b.hour, 100);
    ka, kb := ka * 100 + a.hour, kb * 100 + b.hour;
    MixedRadix(ka, kb, a.minute, b.minute, 100);
    ka, kb := ka * 100 + a.minute, kb * 100 + b.minute;
    MixedRadix(ka, kb, a.second, b.second, 100);
    ka, kb := ka * 100 + a.second, kb * 100 + b.second;
    MixedRadix(ka, kb, a.microsecond, b.microsecond, 1000000);
  }

  /** Python's `<` on `str`: lexicographic by character code. */
  predicate LexLess(a: string, b: string) {
    |b| > 0 && (|a| == 0 || a[0] < b[0] || (a[0] == b[0] && LexLess(a[1..], b[1..])))
  }

  /** Lexicographic order of sequences of numbers of equal length. */
  predicate NumsLess(u: seq<nat>, v: seq<nat>)
    requires |u| == |v|
  {
    |u| > 0 && (u[0] < v[0] || (u[0] == v[0] && NumsLess(u[1..], v[1..])))
  }

  lemma {:induction false} LexAppend(a: string, b: string, c: string, d: string)
    requires |a| == |b|
    ensures LexLess(a + c, b + d) <==> LexLess(a, b) || (a == b && LexLess(c, d))
    decreases |a|
  {
    if |a| > 0 {
      assert (a + c)[1..] == a[1..] + c && (b + d)[1..] == b[1..] + d;
      LexAppend(a[1..], b[1..], c, d);
      if a[0] == b[0] && a[1..] == b[1..] {
        assert a == [a[0]] + a[1..] && b == [b[0]] + b[1..];
      }
    } else {
      assert a + c == c && b + d == d;
    }
  }

  lemma {:induction false} DigitsOrder(x: nat, y: nat, w: nat)
    requires x < Pow10(w) && y < Pow10(w)
    ensures LexLess(Digits(x, w), Digits(y, w)) <==> x < y
    ensures Digits(x, w) == Digits(y, w) <==> x == y
  {
    if w > 0 {
      SplitLastDigit(x, Pow10(w - 1));
      SplitLastDigit(y, Pow10(w - 1));
      DigitsOrder(x / 10, y / 10, w - 1);
      LexAppend(Digits(x / 10, w - 1), Digits(y / 10, w - 1), [DigitChar(x % 10)], [DigitChar(y % 10)]);
      MixedRadix(y / 10, x / 10, y % 10, x % 10, 10);
      if Digits(x, w) == Digits(y, w) {
        assert Digits(x / 10, w - 1) == Digits(x, w)[..w - 1] && DigitChar(x % 10) == Digits(x, w)[w - 1];
        assert Digits(y / 10, w - 1) == Digits(y, w)[..w - 1] && DigitChar(y % 10) == Digits(y, w)[w - 1];
      }
    }
  }

  lemma {:induction false} FormatOrder(u: seq<nat>, v: seq<nat>, steps: seq<Step>)
    requires |u| == |steps| && |v| == |steps| && InRanges(u, steps) && InRanges(v, steps)
    ensures LexLess(FormatSteps(u, steps), FormatSteps(v, steps)) <==> NumsLess(u, v)
    decreases |steps|
  {
    if |steps| > 0 {
      var d := steps[0].directive;
      var follow := steps[0].follow;
      var ru := FormatSteps(u[1..], steps[1..]);
      var rv := FormatSteps(v[1..], steps[1..]);
      HighestFits(d);
      DigitsOrder(u[0], v[0], MaxWidth(d));
      assert FormatSteps(u, steps) == Digits(u[0], MaxWidth(d)) + (follow + ru);
      assert FormatSteps(v, steps) == Digits(v[0], MaxWidth(d)) + (follow + rv);
      LexAppend(Digits(u[0], MaxWidth(d)), Digits(v[0], MaxWidth(d)), follow + ru, follow + rv);
      LexAppend(follow, follow, ru, rv);
      LexIrreflexive(follow);
      FormatOrder(u[1..], v[1..], steps[1..]);
    }
  }

  lemma FieldsOrder(a: DateTime, b: DateTime)
    requires Valid(a) && Valid(b)
    ensures Later(a, b) <==> NumsLess(Fields(b), Fields(a))
  {
    var u, v := Fields(b), Fields(a);
    NumsLessFrom(u, v, 6);
    assert !NumsLess(u[7..], v[7..]);
    NumsLessFrom(u, v, 5);
    NumsLessFrom(u, v, 4);
    NumsLessFrom(u, v, 3);
    NumsLessFrom(u, v, 2);
    NumsLessFrom(u, v, 1);
    NumsLessFrom(u, v, 0);
    assert u[0..] == u && v[0..] == v;
  }

  lemma NumsLessFrom(u: seq<nat>, v: seq<nat>, k: nat)
    requires |u| == |v| && k < |u|
    ensures NumsLess(u[k..], v[k..]) <==> u[k] < v[k] || (u[k] == v[k] && NumsLess(u[k + 1..], v[k + 1..]))
  {
    assert u[k..][1..] == u[k + 1..] && v[k..][1..] == v[k + 1..];
  }

  lemma {:induction false} LexIrreflexive(a: string)
    ensures !LexLess(a, a)
    decreases |a|
  {
    if |a| > 0 {
      LexIrreflexive(a[1..]);
    }
  }

  /** The canonical texts of two valid datetimes compare as strings the way
      the datetimes compare: every field is zero-padded to a fixed width. */
  lemma FormatLexOrder(a: DateTime, b: DateTime)
    requires Valid(a) && Valid(b)
    ensures Later(a, b) <==> LexLess(Format(b), Format(a))
  {
    ValidInRanges(Fields(a));
    ValidInRanges(Fields(b));
    FormatOrder(Fields(b), Fields(a), Layout);
    FieldsOrder(a, b);
  }

  // ---------------------------------------------------------------------------
  // The start of a record's time string

  /** Only the characters at offsets 1..32 of the time string matter. */
  lemma ExtractFirstDateWindow(time1: string, time2: string)
    requires |time1| == |time2| || (|time1| >= 33 && |time2| >= 33)
    requires forall k | 1 <= k < 33 && k < |time1| && k < |time2| :: time1[k] == time2[k]
    ensures ExtractFirstDate(time1) == ExtractFirstDate(time2)
  {
    assert StartField(time1) == StartField(time2);
  }

  /** For a time string of 33 characters or more the window is 32 characters
      wide: the start parses exactly when the window has the fixed layout and
      names a valid datetime, and the result is the numbers at the fixed
      positions. */
  lemma ExtractFirstDateFixed(time: string)
    requires |time| >= 33
    ensures ExtractFirstDate(time).Success? <==>
              FixedLayout(time[1..33]) && Valid(FieldsAt(time[1..33]))
    ensures ExtractFirstDate(time).Success? ==> ExtractFirstDate(time).value == FieldsAt(time[1..33])
  {
    FixedWidthParse(time[1..33]);
  }

  /** A time string holding the canonical text of a valid datetime at offsets
      1..32 yields that datetime. */
  lemma ExtractFormatted(time: string, t: DateTime)
    requires Valid(t) && |time| >= 33 && time[1..33] == Format(t)
    ensures ExtractFirstDate(time).Success? && ExtractFirstDate(time).value == t
  {
    FormatParses(t);
  }

  /** A time string shorter than 33 characters gives a shorter window, and
      `strptime` then accepts fields narrower than their slots. */
  lemma ShortTimeParses()
    ensures ExtractFirstDate("[2020-1-2T3:4:5.6+00:00").Success?
    ensures ExtractFirstDate("[2020-1-2T3:4:5.6+00:00").value == DateTime(2020, 1, 2, 3, 4, 5, 600000)
  {
    SampleWindow();
    var s := ShortSample;
    LayoutTail1();
    LayoutTail2();
    LayoutTail3();
    LayoutTail4();
    LayoutTail5();
    NarrowChain(s, Layout, Layout[1..], Layout[2..], Layout[3..], Layout[4..], Layout[5..], Layout[6..]);
    MatchedWhole(s);
  }

  const ShortSample: string := "2020-1-2T3:4:5.6+00:00"

  lemma SampleWindow()
    ensures StartField("[2020-1-2T3:4:5.6+00:00") == ShortSample && SampleShape(ShortSample)
  {
    var time := "[2020-1-2T3:4:5.6+00:00";
    assert |time| == 23;
    assert time[1..] == ShortSample;
    SampleShaped();
  }

  lemma SampleShaped()
    ensures SampleShape(ShortSample)
  {
  }

  /** The characters of `ShortSample`, one by one. */
  predicate SampleShape(s: string) {
    && |s| == 22 && s[0] == '2' && s[1] == '0' && s[2] == '2' && s[3] == '0'
    && s[4] == '-' && s[5] == '1' && s[6] == '-' && s[7] == '2' && s[8] == 'T'
    && s[9] == '3' && s[10] == ':' && s[11] == '4' && s[12] == ':' && s[13] == '5'
    && s[14] == '.' && s[15] == '6' && s[16] == '+' && s[17] == '0' && s[18] == '0'
    && s[19] == ':' && s[20] == '0' && s[21] == '0'
  }

  // The steps of the layout after the first `k`, one lemma for each `k`.
  // The sample proof below is written against these facts, and takes the
  // steps as parameters, so that the solver never unfolds the seven-step layout
  // constant or compares long literal sequences; either makes it costly.

  lemma LayoutTail1()
    ensures Layout[1..][0] == Step(Month, "-") && Layout[1..][1..] == Layout[2..]
  {
  }

  lemma LayoutTail2()
    ensures Layout[2..][0] == Step(DayOfMonth, "T") && Layout[2..][1..] == Layout[3..]
  {
  }

  lemma LayoutTail3()
    ensures Layout[3..][0] == Step(Hour, ":") && Layout[3..][1..] == Layout[4..]
  {
  }

  lemma LayoutTail4()
    ensures Layout[4..][0] == Step(Minute, ":") && Layout[4..][1..] == Layout[5..]
  {
  }

  lemma LayoutTail5()
    ensures Layout[5..][0] == Step(Second, ".") && Layout[5..][1..] == Layout[6..]
    ensures Layout[6..][0] == Step(Fraction, "+00:00") && Layout[6..][1..] == []
  {
  }

  /** The sample matches any sequence of steps that has the steps of the
      timestamp layout, each field read from its one or four digits. The steps
      are parameters so that the proof never unfolds the layout constant. */
  lemma NarrowChain(s: string, l0: seq<Step>, l1: seq<Step>, l2: seq<Step>, l3: seq<Step>,
                    l4: seq<Step>, l5: seq<Step>, l6: seq<Step>)
    requires SampleShape(s)
    requires |l0| > 0 && l0[0] == Step(Year, "-") && l0[1..] == l1
    requires |l1| > 0 && l1[0] == Step(Month, "-") && l1[1..] == l2
    requires |l2| > 0 && l2[0] == Step(DayOfMonth, "T") && l2[1..] == l3
    requires |l3| > 0 && l3[0] == Step(Hour, ":") && l3[1..] == l4
    requires |l4| > 0 && l4[0] == Step(Minute, ":") && l4[1..] == l5
    requires |l5| > 0 && l5[0] == Step(Second, ".") && l5[1..] == l6
    requires |l6| > 0 && l6[0] == Step(Fraction, "+00:00") && l6[1..] == []
    ensures MatchSteps(s, 0, l0).Success? && MatchSteps(s, 0, l0).value.next == 22
    ensures MatchSteps(s, 0, l0).value.values == [2020, 1, 2, 3, 4, 5, 600000]
  {
    NarrowTail(s, l3, l4, l5, l6);
    OneDigitStep(s, 7, l2);
    OneDigitStep(s, 5, l1);
    ShortYear(s);
    MatchStepsCons(s, 0, l0, 2020, 4, 5);
    PrependValues(2020, 1, 2, MatchSteps(s, 9, l3).value.values, MatchSteps(s, 7, l2).value.values,
                  MatchSteps(s, 5, l1).value.values, MatchSteps(s, 0, l0).value.values);
  }

  /** The second half of the sample: the fields from the hour on. */
  lemma NarrowTail(s: string, l3: seq<Step>, l4: seq<Step>, l5: seq<Step>, l6: seq<Step>)
    requires |s| == 22 && s[9] == '3' && s[10] == ':' && s[11] == '4' && s[12] == ':'
    requires s[13] == '5' && s[14] == '.' && s[15] == '6' && s[16] == '+' && s[17] == '0'
    requires s[18] == '0' && s[19] == ':' && s[20] == '0' && s[21] == '0'
    requires |l3| > 0 && l3[0] == Step(Hour, ":") && l3[1..] == l4
    requires |l4| > 0 && l4[0] == Step(Minute, ":") && l4[1..] == l5
    requires |l5| > 0 && l5[0] == Step(Second, ".") && l5[1..] == l6
    requires |l6| > 0 && l6[0] == Step(Fraction, "+00:00") && l6[1..] == []
    ensures MatchSteps(s, 9, l3).Success? && MatchSteps(s, 9, l3).value.next == 22
    ensures MatchSteps(s, 9, l3).value.values == [3, 4, 5, 600000]
  {
    ShortFraction(s);
    MatchStepsCons(s, 15, l6, 600000, 16, 22);
    OneDigitStep(s, 13, l5);
    OneDigitStep(s, 11, l4);
    OneDigitStep(s, 9, l3);
    PrependValues(3, 4, 5, MatchSteps(s, 15, l6).value.values, MatchSteps(s, 13, l5).value.values,
                  MatchSteps(s, 11, l4).value.values, MatchSteps(s, 9, l3).value.values);
  }

  /** Three fields put in front of the values after them, one at a time;
      stated for abstract sequences so that the literal result is built once. */
  lemma PrependValues(x: nat, y: nat, z: nat, d: seq<nat>, c: seq<nat>, b: seq<nat>, a: seq<nat>)
    requires c == [z] + d && b == [y] + c && a == [x] + b
    ensures |d| == 1 ==> a == [x, y, z, d[0]]
    ensures |d| == 4 ==> a == [x, y, z, d[0], d[1], d[2], d[3]]
  {
  }

  /** A single digit, then a one-character literal, then the rest of the match. */
  lemma OneDigitStep(s: string, i: nat, steps: seq<Step>)
    requires |steps| > 0 && steps[0].directive != Year && steps[0].directive != Fraction
    requires i + 1 < |s| && IsDigit(s[i]) && !IsDigit(s[i + 1])
    requires Lowest(steps[0].directive) <= DigitValue(s[i]) <= Highest(steps[0].directive)
    requires |steps[0].follow| == 1 && s[i + 1] == steps[0].follow[0]
    requires MatchSteps(s, i + 2, steps[1..]).Success?
    ensures MatchSteps(s, i, steps).Success?
    ensures MatchSteps(s, i, steps).value.values == [DigitValue(s[i])] + MatchSteps(s, i + 2, steps[1..]).value.values
    ensures MatchSteps(s, i, steps).value.next == MatchSteps(s, i + 2, steps[1..]).value.next
  {
    OneDigitField(s, i, steps[0].directive, steps[0].follow);
    MatchStepsCons(s, i, steps, DigitValue(s[i]), i + 1, i + 2);
  }

  /** A single digit, then a one-character literal. */
  lemma OneDigitField(s: string, i: nat, d: Directive, follow: string)
    requires i + 1 < |s| && IsDigit(s[i]) && Lowest(d) <= DigitValue(s[i]) <= Highest(d)
    requires d != Year && d != Fraction && !IsDigit(s[i + 1])
    requires |follow| == 1 && s[i + 1] == follow[0]
    ensures ScanDirective(s, i, d) == Success(Scan(DigitValue(s[i]), i + 1))
    ensures Text(s, i + 1, follow) == Success(i + 2)
  {
    RunEndAt(s, i, i + 1);
    assert s[i..i + 1] == [s[i]] && [s[i]][..0] == [];
    assert Decimal(s[i..i + 1]) == DigitValue(s[i]);
  }

  lemma ShortYear(s: string)
    requires |s| == 22 && s[0] == '2' && s[1] == '0' && s[2] == '2' && s[3] == '0' && s[4] == '-'
    ensures ScanDirective(s, 0, Year) == Success(Scan(2020, 4))
    ensures Text(s, 4, "-") == Success(5)
  {
    RunEndAt(s, 0, 4);
    assert s[0..1][..0] == [] && Decimal(s[0..1]) == 2;
    assert s[0..2][..1] == s[0..1] && Decimal(s[0..2]) == 20;
    assert s[0..3][..2] == s[0..2] && Decimal(s[0..3]) == 202;
    assert s[0..4][..3] == s[0..3] && Decimal(s[0..4]) == 2020;
  }

  lemma ShortFraction(s: string)
    requires |s| == 22 && s[15] == '6' && s[16] == '+' && s[17] == '0' && s[18] == '0'
    requires s[19] == ':' && s[20] == '0' && s[21] == '0'
    ensures ScanDirective(s, 15, Fraction) == Success(Scan(600000, 16))
    ensures Text(s, 16, "+00:00") == Success(22)
  {
    RunEndAt(s, 15, 16);
    assert s[15..16] == "6" && "6"[..0] == [];
    assert Pow10(5) == 100000;
  }
}

=== FILE: wrappers.dfy ===
/** Failure-compatible wrappers used for the script's error paths: `Option` for
    Python's `None`, `Result` for a value or the exception that replaces it. */
module Wrappers {

  datatype Option<+T> = None | Some(value: T)

  datatype Result<+T, +E> = Success(value: T) | Failure(error: E) {

    predicate IsFailure() {
      Failure?
    }

    function PropagateFailure<U>(): Result<U, E>
      requires Failure?
    {
      Failure(error)
    }

    function Extract(): T
      requires Success?
    {
      value
    }
  }
}
